=== FILE: README.md ===
# WallStreet market simulation — a verified model of its deterministic core

WallStreet is a day-by-day simulation of a financial market. A registry of
financial agents (central bank, exchange, financial institutions, direct
participants, …) holds balances, connections and transaction histories. A
seven-field market state (interest rate, inflation, volatility, liquidity,
sentiment, growth, unemployment) drifts with Gaussian noise. Random events
shock the state, the central bank runs a 30-day interest-rate rule, and
connected agents make small peer payments. Each asset class's price for the
day is scaled by sentiment and volatility factors. A library of stochastic
helpers builds price paths, shocks, trading volumes, order books, liquidity
figures and interest-rate paths.

This project models that core as pure Dafny functions over immutable
datatypes. Every random draw is an explicit input:

- a normal draw `normal(mu, sd)` is `mu + sd * z` with `z` given;
- the payment amount `uniform(0, balance * 0.01)` is `balance * 0.01 * u` with `u` in `[0, 1)` given;
- the other uniform draws are given directly as values in their range: the event magnitude `uniform(-0.1, 0.1)` (`EventDraw.magnitude`, in [-0.1, 0.1]), and each order-book level's volume noise and price jitter `uniform(0.8, 1.2)` (`LevelDraw`, in [0.8, 1.2]);
- the event trial `random.random()` is a given value in `[0, 1)`;
- a `random.choice` is a given index or enumeration value;
- clock readings are given integers.

The agent registry is a sequence whose positions are the agent ids.

Modules, one per part of the program:

| module | models |
|---|---|
| `MarketState` | the market state, its bounds, the daily noise step |
| `Events` | the daily random-event step |
| `Regulatory` | the central bank's interest-rate rule |
| `Agents` | agents, `add_connection`, `transfer_funds`, `update_state` |
| `Connections` | building the hub connection graph |
| `Interactions` | the daily peer interactions |
| `AssetPrices` | the daily price adjustment |
| `Simulation` | one day and the whole run, with the invariants a run keeps |
| `MarketUtils` | price paths, interest-rate paths, shocks, trading volume |
| `OrderBook` | order-book generation and market liquidity |
| `DatedSeries` | the date-indexed pandas wrapping of price and rate paths |

`Wrappers` holds the `Option` type.

## Model

| member | source | states |
|---|---|---|
| MarketState.Initial | market_simulation.py:53-61 | The starting state (rate 0.02, inflation 0.03, volatility 0.15, liquidity 1.0, sentiment 0, growth 0.02, unemployment 0.05) is within every declared bound, with neutral sentiment. |
| MarketState.UpdateMarketState | market_simulation.py:209-230 | Each indicator moves by its own noise term. Rate, inflation and volatility are floored at 0.001, 0 and 0.01. Liquidity, sentiment and unemployment are clamped to [0.5, 2], [-1, 1] and [0.01, 0.2]. Growth is never clamped. The result is always within bounds. |
| MarketState.QuietDayIsIdentity | market_simulation.py:209-230 | With all-zero noise, an in-bounds state is returned unchanged: the clamps never move a value that already satisfies them. |
| MarketState.ClampIdempotent | market_simulation.py:211-228 | Applying a clamp or a floor a second time changes nothing. |
| Events.ApplyEffect | market_simulation.py:257-275 | An event touches only sentiment, growth and volatility. Sentiment and volatility end up back in bounds. Only political and regulatory events move volatility, and a political event never lowers it. A regulatory change leaves growth alone. Each category's effect is stated before the re-clamp: economic news moves sentiment by 2m and growth by 0.01m; a political event moves sentiment by m and raises volatility by 0.05|m|; a natural disaster lowers sentiment by 0.5|m| and growth by 0.005|m|; a technology breakthrough raises sentiment by |m| and growth by 0.002|m|; a regulatory change moves volatility by 0.02m. |
| Events.ProcessEvents | market_simulation.py:234-277 | An event fires exactly when the trial draw is below the probability. When it fires, exactly one record (day, category, magnitude in [-0.1, 0.1]) is appended and the category's effect is applied. Otherwise neither the state nor the log changes. The old log stays a prefix. |
| Events.ProcessEventsKeepsBounds | market_simulation.py:234-277 | The event step keeps every declared bound of the market state. |
| Events.NaturalDisasterNeverRaises | market_simulation.py:264-266 | A natural disaster never raises sentiment or growth. |
| Events.TechnologyBreakthroughNeverLowers | market_simulation.py:267-269 | A technology breakthrough never lowers sentiment or growth. |
| Events.EconomicNewsFollowsSign | market_simulation.py:258-260 | Economic news moves sentiment and growth in the direction of the magnitude's sign. |
| Regulatory.RateRise | market_simulation.py:300-302 | A rise is the smaller of the cap 0.0025 and a tenth of the excess of inflation over 2%, and is strictly positive. |
| Regulatory.RateCut | market_simulation.py:305-307 | A cut is the smaller of the cap 0.0025 and a tenth of the shortfall of growth below 2%, and is strictly positive. |
| Regulatory.AdjustInterestRate | market_simulation.py:290-309 | Only the interest rate ever changes. Nothing happens off the 30-day cadence or without a central bank. High inflation (> 4%) raises the rate by a positive step of at most 0.0025. Otherwise low growth (< 1%) cuts it, floored at 0.001. Neither condition leaves the state unchanged. The rate floor is kept. |
| Regulatory.AdjustInterestRateKeepsBounds | market_simulation.py:290-309 | The policy rule keeps every declared bound of the market state. |
| Regulatory.InflationTakesPriority | market_simulation.py:298-307 | With inflation high and growth low at the same time, the rate goes up, not down. |
| Regulatory.HighInflationScenario | market_simulation.py:298-302 | Inflation 5% with growth 2% on a policy day raises the rate by the full cap 0.0025. |
| Agents.FindByName | market_simulation.py:148-152 | Returns the first agent with the name, in registry order, or nothing exactly when no agent has it. |
| Agents.FindByNameOnlyReadsNames | market_simulation.py:148-152 | The lookup depends only on the names, so adding connections never changes which hub it finds. |
| Agents.TotalBalanceUpdate | utils/base_agent.py:94-95 | Replacing one agent changes the sum of all balances by exactly that agent's change in balance. |
| Agents.AddConnection | utils/base_agent.py:77-83 | After the call `b` is in `a`'s list, and `a` is in `b`'s whenever the edge was new. Only the two parties' connection lists change, and an existing edge makes the call a no-op. On a symmetric registry the graph gains exactly the edge and its reverse. |
| Agents.AddConnectionKeepsInvariants | utils/base_agent.py:77-83 | The registry stays well formed, symmetric and free of duplicate connections. |
| Agents.AddConnectionIdempotent | utils/base_agent.py:77-83 | Calling `add_connection` a second time changes nothing. |
| Agents.Transfer | utils/base_agent.py:85-109 | A non-positive amount fails first; then an amount above the balance fails. A failure changes nothing. The transfer succeeds exactly when 0 < amount <= balance. On success it records (sender id, recipient id, amount, description, time), debits the sender, credits the recipient and appends the record to both histories. A transfer to oneself keeps the balance and appends the record twice. No other agent changes. |
| Agents.TransferConservesTotal | utils/base_agent.py:94-95 | A transfer, successful or not, never changes the sum of all balances. |
| Agents.TransferKeepsInvariants | utils/base_agent.py:85-109 | A transfer never changes the connection graph, keeps the registry well formed and keeps every balance non-negative. |
| Agents.TransferScenario | utils/base_agent.py:85-109 | Moving 50 from a balance of 100 to a balance of 0 leaves 50 on each side, with one new record each. |
| Agents.InsufficientFundsScenario | utils/base_agent.py:90-91 | Moving 150 out of a balance of 100 fails with insufficient funds and changes nothing. |
| Agents.UpdateState | utils/base_agent.py:111-115 | Each attribute named in the update is overwritten. Every attribute not named, and the id, name and category, are kept. |
| Agents.UpdateStateIdempotent | utils/base_agent.py:111-115 | Applying the same update twice equals applying it once. |
| Agents.EmptyUpdateIsIdentity | utils/base_agent.py:111-115 | An update with no keywords changes nothing. |
| Connections.ConnectHub | market_simulation.py:156-158 | Connecting a hub to every selected agent, in order, changes only connection lists and keeps the graph symmetric. The graph gains exactly the hub–selected-agent edges. |
| Connections.EstablishConnections | market_simulation.py:143-172 | Only connection lists change. On a symmetric graph the result gains exactly two groups of edges: central bank–institution edges if an agent named 中央银行 exists, and exchange–institution/direct-participant edges if one named 证券交易所 exists. |
| Connections.NoConnectionsIsSymmetric | market_simulation.py:143-172 | A registry without any connection, as freshly created agents are, is symmetric. |
| Connections.ConnectHubKeepsInvariants | market_simulation.py:156-158 | Connecting a hub keeps the registry well formed and free of duplicate connections. |
| Connections.EstablishConnectionsKeepsInvariants | market_simulation.py:143-172 | Building the graph keeps the registry well formed, symmetric and free of duplicate connections. |
| Interactions.NumInteractions | market_simulation.py:317 | A day makes at most 10 attempts and at most one per two agents, and reaches one of the two caps. |
| Interactions.Partner | market_simulation.py:319-320 | The partner is drawn from the other agents, so it is never the initiator; position `other` in the list of other agents is agent `other` or `other + 1`. |
| Interactions.PartnerOnto | market_simulation.py:319-320 | Every agent other than the initiator is reached by exactly one position of the list of other agents, so `random.choice` can pick any of them. |
| Interactions.PaymentAmount | market_simulation.py:335 | A payment draw lies in [0, 1% of the balance], stays below the balance, and is positive exactly when its uniform draw is. |
| Interactions.Interact | market_simulation.py:318-340 | The ledger grows, by one entry, exactly for a payment over an existing edge from a positive balance with a positive amount. That entry is the transfer record of at most 1% of the initiator's balance. Otherwise the registry is untouched. The graph never changes. |
| Interactions.RunInteractions | market_simulation.py:318-340 | A sequence of attempts keeps the graph and well-formedness. The ledger grows by at most one entry per attempt, keeping its prefix. Every new entry is a positive payment between distinct, connected agents. |
| Interactions.ExecuteAgentInteractions | market_simulation.py:311-340 | One day's interactions add at most `min(10, n div 2)` ledger entries, each a peer payment over the graph, and never change the graph. |
| Interactions.InteractPreservesBalances | market_simulation.py:323-340 | One attempt keeps the sum of all balances and keeps every balance non-negative. |
| Interactions.InteractionsPreserveBalances | market_simulation.py:316-340 | A day's attempts keep the sum of all balances and keep every balance non-negative. |
| Interactions.MessagesChangeNothing | market_simulation.py:323-331 | A message, or an attempt between unconnected agents, changes nothing. |
| AssetPrices.AdjustSeries | market_simulation.py:345-356 | Only the entry at today's index changes, becoming the price times the sentiment factor times the volatility factor. |
| AssetPrices.UpdateAssetPrices | market_simulation.py:342-358 | Every asset class keeps its series length. Only today's entry of each series moves, by the two factors of the current market state. |
| AssetPrices.FactorBounds | market_simulation.py:349-350 | With in-bounds sentiment and volatility, the sentiment factor lies in [0.99, 1.01] and the volatility factor is at least 0.986. |
| AssetPrices.UpdateKeepsPricesPositive | market_simulation.py:342-358 | With the market state in bounds, positive prices stay positive. |
| Simulation.SimulateDay | market_simulation.py:180-205 | One day runs noise, event, policy rule, interactions and prices, in that order. The final market state is the policy rule applied to the event step applied to the noise step. The event log is the event step's log, and the accounts are the interaction step's result. The market ends within bounds. At most one event is appended, exactly when the trial is below the probability. The graph is fixed. The ledger grows by at most 10 peer payments. Only today's prices move, by the factors of the day's final market state. |
| Simulation.NextDayRunnable | market_simulation.py:180-205 | After one day, the remaining days can still be simulated. |
| Simulation.Run | market_simulation.py:180-205 | A run never changes the connection graph, keeps the registry well formed, and keeps the asset classes and their series lengths. Its day numbering is stated by `RunLastDay` and `RunEventDays`. |
| Simulation.RunSimulation | market_simulation.py:176-207 | The whole simulation from day 0 keeps the graph and the asset classes. |
| Simulation.RunEventBounds | market_simulation.py:180-205 | A run of `d` days adds at most `d` events and keeps the earlier events as a prefix. |
| Simulation.RunLedgerBounds | market_simulation.py:180-205 | A run of `d` days adds at most `10 * d` ledger entries and keeps the earlier ones as a prefix. |
| Simulation.RunTouchesOnlyItsDays | market_simulation.py:180-205 | A run changes prices only at the indices of the days it simulates. |
| Simulation.RunLastDay | market_simulation.py:180-205 | The day counter advances once per input: a run of `n` inputs from `day` is the run of its first `n - 1` inputs followed by one simulated day numbered `day + n - 1` on the last input. By induction, input `k` is simulated as day `day + k`, with that day's events, policy check and price index. |
| Simulation.RunEventDays | market_simulation.py:180-205 | Every event a run logs is dated with one of the run's days, `day` to `day + n - 1`, and the new events appear in strictly increasing day order. |
| Simulation.InitialWorld | market_simulation.py:53-98 | The constructed world has the initial market state, empty event and transaction logs, and the given agents with only their connection lists changed. On freshly created agents, the edges are exactly the central-bank and exchange hub edges. |
| Simulation.InitialWorldInvariant | market_simulation.py:53-83 | Freshly created agents with non-negative balances and positive prices give a world that satisfies the run invariant: state in bounds, symmetric duplicate-free graph, non-negative balances, positive prices. |
| Simulation.SimulateDayPreservesInvariant | market_simulation.py:180-205 | One day keeps the run invariant and the sum of all balances. |
| Simulation.RunPreservesInvariant | market_simulation.py:180-205 | Every run keeps the invariant. Money is neither created nor destroyed. |
| Simulation.QuietDayIsNoiseOnly | market_simulation.py:180-190 | On a day with no event and no policy move, the market state is the noise step alone. |
| Simulation.PolicySeesPerturbedInflation | market_simulation.py:186-193 | The policy rule runs after the noise step: noise alone lifting inflation above 4% on a quiet policy day makes the rate rise. |
| Simulation.PolicySeesEventEffect | market_simulation.py:186-193 | The policy rule runs after the event step: a natural disaster that pushes growth below 1% on a policy day makes the rate fall. |
| MarketUtils.PricePathSteps | utils/market_utils.py:45-46 | On a cumulative-product path, each price is the previous one times that day's multiplier, and the first already carries the first multiplier. |
| MarketUtils.FlatPricePath | utils/market_utils.py:45-46 | With all multipliers 1, the path is constant at the initial price. |
| MarketUtils.PositivePricePath | utils/market_utils.py:45-46 | With a positive initial price and positive multipliers, every price is positive. |
| MarketUtils.GeneratePriceSeries | utils/market_utils.py:16-48 | `days` prices, each the initial price times the cumulative product of the multipliers up to and including its own day. Each is one multiplier away from the previous one. A process without drift or volatility is constant, and positive multipliers keep the path positive. |
| MarketUtils.ScaledCumulativeProduct | utils/market_utils.py:46 | `initial * ms.cumprod()`: each entry is the initial value times the product of the multipliers so far. |
| MarketUtils.ReversionStep | utils/market_utils.py:283-284 | A step moves the previous rate by `speed` times its gap to the long-term mean plus the scaled noise, then floors the result at 0.001. |
| MarketUtils.RatePathLength | utils/market_utils.py:281-285 | The rate path has `days` entries when `days >= 1`, and just the initial rate otherwise. |
| MarketUtils.SimulateInterestRates | utils/market_utils.py:250-287 | The path starts at the initial rate, each later rate is one floored mean-reversion step from the previous one, and every later rate is at least 0.001. |
| MarketUtils.RatePathUnique | utils/market_utils.py:281-285 | A rate path is determined by its initial rate, parameters and draws. |
| MarketUtils.ReversionStepApproachesMean | utils/market_utils.py:283-284 | Without noise, with speed in [0, 1] and a mean above the floor, one step never moves the rate away from the mean. |
| MarketUtils.MeanReversionWithoutNoise | utils/market_utils.py:281-285 | Without noise, the distance of the rate to its long-term mean never grows along the path. |
| MarketUtils.ShockIndex | utils/market_utils.py:115-116 | The shock index is the unique position of the daily index nearest to the date `recoveryDays` days before the last one. |
| MarketUtils.SimulateMarketShock | utils/market_utils.py:94-128 | The series keeps its length and its days before the shock. The shock day is scaled by `1 + magnitude`. Every later day is the original price times `1 + residual`. Later days exist only when `recoveryDays > 0`. |
| MarketUtils.FullRecovery | utils/market_utils.py:123-125 | Once `t * strength >= recoveryDays`, the residual shock is 0. |
| MarketUtils.ShockRecovers | utils/market_utils.py:121-126 | A day past full recovery carries its original price. |
| MarketUtils.RecoveryFactorGrows | utils/market_utils.py:123-124 | With a non-negative strength, the recovery factor lies in [0, 1] and never decreases over time. |
| MarketUtils.ResidualFades | utils/market_utils.py:121-126 | With a non-negative strength, the size of the residual shock never grows over time. |
| MarketUtils.RoundHalfEven | utils/market_utils.py:175 | Rounding lands within 0.5 of the value, and an exact tie goes to the even integer. |
| MarketUtils.AbsChange | utils/market_utils.py:167 | The absolute percentage change is non-negative. It is 0 on the first day and 0 for a step from 0 to 0, whose missing `0 / 0` change is filled with 0. Otherwise, times the previous price's size, it equals the size of the price move. |
| MarketUtils.SimulateTradingVolume | utils/market_utils.py:148-175 | One volume per price, each within 0.5 of `base * (1 + abs change * sensitivity) * noise`. The first day has no change term. |
| MarketUtils.FlatPricesGiveNoiseVolume | utils/market_utils.py:167-175 | On a flat price series, each volume is the base volume times its noise, rounded. |
| OrderBook.TruncateTowardZero | utils/market_utils.py:204 | `int(x)` drops the fractional part toward zero, and is non-negative exactly when `x > -1`. |
| OrderBook.LevelVolumeBounds | utils/market_utils.py:204 | For the first twenty levels with non-negative base and noise, a level's volume is between 0 and the noisy base volume. |
| OrderBook.Ladder | utils/market_utils.py:202-214 | A side of the book: one level per draw, starting at the best quote. Each deeper price is one jittered step further out, and level `i` has the tapered, noisy volume. |
| OrderBook.LadderMonotone | utils/market_utils.py:202-214 | With a positive step and jitter in [0.8, 1.2], bid prices strictly fall and ask prices strictly rise with depth. |
| OrderBook.GenerateOrderBook | utils/market_utils.py:178-219 | Both sides have `depth` levels (none for a non-positive depth). The best bid and ask are the price ∓ half the spread. Deeper levels step outwards, and volumes taper by 5% per level times the noise. |
| OrderBook.OrderBookMonotone | utils/market_utils.py:198-214 | With a positive step, a generated book's bids strictly fall and its asks strictly rise with depth. |
| OrderBook.MarketLiquidity | utils/market_utils.py:222-247 | An empty ask side gives 0. A spread that is zero or negative gives infinity. Otherwise the figure is the total volume over the spread. |
| OrderBook.GeneratedBookLiquidity | utils/market_utils.py:198-247 | A generated book with positive price and depth has finite liquidity exactly when the spread percentage is positive, and then it is the total volume over `price * spread_percent / 100`. |
| OrderBook.QuotedBookLiquidity | utils/market_utils.py:236-247 | The same for any book whose best quotes sit half a spread either side of the price. |
| OrderBook.LiquidityOverSpread | utils/market_utils.py:241-247 | Given the spread between the best quotes, liquidity is infinite exactly when it is not positive, and otherwise the total volume over it. |
| OrderBook.SpreadSign | utils/market_utils.py:198 | Twice the half spread is the full spread, which is positive exactly when the spread percentage is. |
| DatedSeries.PriceSeriesAsWrittenFails | utils/market_utils.py:40-48 | As written, a price path never fits its `days + 1` date labels. |
| DatedSeries.RateSeriesAsWritten | utils/market_utils.py:278-287 | As written, a rate path fits its date labels exactly when `days` is 0. |
| DatedSeries.GenerateDatedPriceSeries | utils/market_utils.py:40-48 | With one label per day, the price Series always exists and holds the generated path. |
| DatedSeries.SimulateDatedInterestRates | utils/market_utils.py:278-287 | With one label per day, the rate Series exists exactly when at least one day is simulated, and then holds the generated path. |

## Left out

- Random number generation and seeding: every draw is an input, with its distribution stated as a range or a formula on the input.
- Floating point: the model uses exact reals. Rounding of prices to two decimals in the order book (`round(bid_price, 2)`) is left out, and level prices are exact.
- Logging, progress bars, `_perform_settlement` and `_record_state` (empty), and `get_simulation_results` (a read-out).
- The stress-test and report cadences in `_execute_regulatory_activities`: they only log.
- The message text built for a message interaction; a message changes no state.
- The `autogen` assistant wrapped by each agent, `send_message`, and the clock read by `transfer_funds`: the clock is an input timestamp.
- `uuid` agent ids: an agent's id is its registry position.
- `_initialize_agents` and `_create_agent` (configuration read-out and attribute payloads): the model starts from a given registry.
- The initial price table: the simulation takes it as an input with positive prices rather than generating it, because the generator as written cannot build its Series (see Findings).
- Calendar dates, event description strings and the date of an event record: events keep the day number.
- `update_state` keywords other than balance, connections and transaction history: the other attributes are not modelled.
- `calculate_returns`, `calculate_volatility`, `calculate_sharpe_ratio` and `calculate_correlation_matrix`: pandas statistics outside the modelled core.
- Infinite percentage changes in `simulate_trading_volume` (a zero price followed by a non-zero one): `ChangesDefined` excludes them.
- The int64 cast of volumes: integers are unbounded.
- MarketUtils.SimulateTradingVolume: states each volume as within 0.5 of the raw volume plus the first-day value. Exact half-even rounding is stated separately by `RoundHalfEven` and `VolumeAt`.
- Simulation.RunLedgerBounds: states the bound as the literal `10 * d`, which is `MaxInteractions` per day.
- MarketUtils.SimulateMarketShock: requires a non-empty series, because on an empty one the source raises an `IndexError` when it reads the last date (`prices.index[-1]`); that error path is not modelled.
- MarketUtils.ShockIndex: assumes a gap-free daily index (one label per calendar day, as the generators build). On a business-day or gapped index the nearest date label can sit at a different position.
- MarketUtils.GeneratePriceSeries: takes the number of days as the length of its draw sequence, so it has no negative day count; the source raises for a negative `days` because `np.random.normal` refuses a negative size.
- MarketUtils.GeneratePriceSeries: accepts a negative `volatility`, for which `np.random.normal(drift, volatility, days)` raises ValueError; with the normal draws given as inputs, the model simply scales them by the negative value.
- MarketUtils.SimulateTradingVolume: accepts a negative `random_factor`, for which `np.random.normal(1, random_factor, n)` raises ValueError; with the normal draws given as inputs, the model simply scales them by the negative value.
- OrderBook.Truncate: its contract is the lemma `TruncateTowardZero`, kept out of the function so that its nonlinear instances stay out of unrelated proofs.
- OrderBook.GeneratedBookLiquidity: holds for exact level prices. The source stores each level price rounded to two decimals, so a spread under one cent can round to 0 and the source then reports infinite liquidity (price 1.002 with spread_percent 0.1 quotes 1.001499 and 1.002501, both stored as 1.0).
- The liquidity code treats any non-positive spread as infinite liquidity, while its comment speaks only of a zero spread. The model follows the code, so a crossed book is infinite too.

## Findings

| source | as written | input that shows it | evidently intended | confidence | as-written member | corrected member |
|---|---|---|---|---|---|---|
| utils/market_utils.py:40-48 | `pd.date_range(end - days, end, freq='D')` has `days + 1` labels for `days` prices | `days = 252`: 252 prices, 253 labels, so the Series constructor raises | one label per day, `pd.date_range(end=end, periods=days)` | high, not executed | DatedSeries.PriceSeriesAsWrittenFails | DatedSeries.GenerateDatedPriceSeries |
| utils/market_utils.py:278-287 | the same index for `days` rates | `days = 365`: 365 rates, 366 labels | one label per day | high, not executed | DatedSeries.RateSeriesAsWritten | DatedSeries.SimulateDatedInterestRates |

=== FILE: agents.dfy ===
/**
 Financial agents (`FinancialAgent`) and the registry that holds them: the
 symmetric `add_connection`, the two-error `transfer_funds` with balance
 conservation and history append, and `update_state`. Agents live in a
 registry sequence and each agent's id is its position there, standing in
 for the generated unique id; a connection list holds the ids of the agents
 connected to. Only the balance, connection and history fields of an agent
 are modelled besides its name and category.
 */
module Agents {
  import opened Wrappers

  /** The categories of the entity catalogue. */
  datatype Category =
    | Regulators
    | FinancialInstitutions
    | MarketInfrastructure
    | AuxiliaryServices
    | DirectParticipants
    | InternationalOrganizations

  /** A transfer record; the clock value is supplied by the caller. */
  datatype Transaction = Transaction(
    source: nat,
    target: nat,
    amount: real,
    description: string,
    timestamp: int)

  datatype Agent = Agent(
    id: nat,
    name: string,
    category: Category,
    balance: real,
    connections: seq<nat>,
    history: seq<Transaction>)

  type Registry = seq<Agent>

  /** Ids are positions and every connection names an agent of the registry. */
  predicate WellFormed(reg: Registry)
  {
    forall i :: 0 <= i < |reg| ==>
      && reg[i].id == i
      && forall c :: c in reg[i].connections ==> c < |reg|
  }

  /** `y` is in the connection list of agent `x`. */
  predicate Connected(reg: Registry, x: int, y: int)
  {
    0 <= x < |reg| && y in reg[x].connections
  }

  /** The connection relation is symmetric. */
  ghost predicate Symmetric(reg: Registry)
  {
    forall x, y :: Connected(reg, x, y) ==> Connected(reg, y, x)
  }

  predicate NoDuplicates(xs: seq<nat>)
  {
    forall i, j :: 0 <= i < j < |xs| ==> xs[i] != xs[j]
  }

  /** No connection list names the same agent twice. */
  predicate DistinctConnections(reg: Registry)
  {
    forall i :: 0 <= i < |reg| ==> NoDuplicates(reg[i].connections)
  }

  predicate NonNegativeBalances(reg: Registry)
  {
    forall i :: 0 <= i < |reg| ==> reg[i].balance >= 0.0
  }

  /** Every agent keeps its id, name, category and connections between `reg` and `reg'`. */
  predicate SameGraph(reg: Registry, reg': Registry)
  {
    && |reg'| == |reg|
    && forall i :: 0 <= i < |reg| ==>
         && reg'[i].id == reg[i].id
         && reg'[i].name == reg[i].name
         && reg'[i].category == reg[i].category
         && reg'[i].connections == reg[i].connections
  }

  /** Sum of all balances of the registry. */
  function TotalBalance(reg: Registry): real
  {
    BalanceFrom(reg, 0)
  }

  /** Sum of the balances of the agents at position `k` and after. */
  function BalanceFrom(reg: Registry, k: nat): real
    requires k <= |reg|
    decreases |reg| - k
  {
    if k == |reg| then 0.0 else reg[k].balance + BalanceFrom(reg, k + 1)
  }

  /** Replacing one agent changes the total by the change of that agent's balance. */
  lemma TotalBalanceUpdate(reg: Registry, i: nat, a: Agent)
    requires i < |reg|
    ensures TotalBalance(reg[i := a]) == TotalBalance(reg) - reg[i].balance + a.balance
  {
    BalanceFromUpdate(reg, i, a, 0);
  }

  lemma {:induction false} BalanceFromUpdate(reg: Registry, i: nat, a: Agent, k: nat)
    requires i < |reg| && k <= |reg|
    decreases |reg| - k
    ensures BalanceFrom(reg[i := a], k) ==
              if k <= i then BalanceFrom(reg, k) - reg[i].balance + a.balance else BalanceFrom(reg, k)
  {
    if k < |reg| {
      BalanceFromUpdate(reg, i, a, k + 1);
    }
  }

  /** The first agent (in registry order) with the given name, if any. */
  function FindByName(reg: Registry, name: string): (r: Option<nat>)
    ensures r.Some? ==> r.value < |reg| && reg[r.value].name == name
    ensures r.Some? ==> forall j :: 0 <= j < r.value ==> reg[j].name != name
    ensures r.None? <==> forall j :: 0 <= j < |reg| ==> reg[j].name != name
  {
    if |reg| == 0 then None
    else if reg[0].name == name then Some(0)
    else
      match FindByName(reg[1..], name)
      case None => None
      case Some(k) => Some(k + 1)
  }

  /** Two registries with the same names in the same order find the same agent. */
  lemma {:induction false} FindByNameOnlyReadsNames(reg: Registry, reg': Registry, name: string)
    requires |reg| == |reg'|
    requires forall i :: 0 <= i < |reg| ==> reg[i].name == reg'[i].name
    ensures FindByName(reg, name) == FindByName(reg', name)
  {
    if |reg| > 0 && reg[0].name != name {
      FindByNameOnlyReadsNames(reg[1..], reg'[1..], name);
    }
  }

  // ---------------------------------------------------------------------------
  // add_connection
  // ---------------------------------------------------------------------------

  /** `a.add_connection(b)`: appends `b` to `a`'s list unless it is already
      there, and then, unless `a` is already in `b`'s list, appends `a` to it
      (the source does this by calling back into `b.add_connection(a)`, which
      stops once it sees `b` in `a`'s list). */
  function AddConnection(reg: Registry, a: nat, b: nat): (r: Registry)
    requires a < |reg| && b < |reg|
    ensures |r| == |reg|
    ensures Connected(r, a, b)
    // Only connection lists change, and only those of `a` and `b`.
    ensures forall k :: 0 <= k < |reg| ==> r[k] == reg[k].(connections := r[k].connections)
    ensures forall k :: 0 <= k < |reg| && k != a && k != b ==> r[k] == reg[k]
    // An existing edge makes the call a no-op.
    ensures b in reg[a].connections ==> r == reg
    // A new edge is added in both directions; so is an existing one on a symmetric registry.
    ensures b !in reg[a].connections ==> Connected(r, b, a)
    ensures Symmetric(reg) ==> Connected(r, b, a)
    // Then the graph gains exactly the edge and its reverse.
    ensures b !in reg[a].connections || Symmetric(reg) ==>
              forall x, y :: Connected(r, x, y) <==> Connected(reg, x, y) || (x == a && y == b) || (x == b && y == a)
  {
    if b in reg[a].connections then reg
    else
      var r1 := reg[a := reg[a].(connections := reg[a].connections + [b])];
      if a in r1[b].connections then r1
      else r1[b := r1[b].(connections := r1[b].connections + [a])]
  }

  /** `add_connection` keeps the registry well formed, symmetric and free of duplicate edges. */
  lemma AddConnectionKeepsInvariants(reg: Registry, a: nat, b: nat)
    requires a < |reg| && b < |reg|
    requires WellFormed(reg) && Symmetric(reg) && DistinctConnections(reg)
    ensures WellFormed(AddConnection(reg, a, b))
    ensures Symmetric(AddConnection(reg, a, b))
    ensures DistinctConnections(AddConnection(reg, a, b))
  {
    var r := AddConnection(reg, a, b);
    forall x, y | Connected(r, x, y)
      ensures Connected(r, y, x)
    {
      assert Connected(reg, x, y) || (x == a && y == b) || (x == b && y == a);
    }
  }

  /** Repeating `add_connection` changes nothing. */
  lemma AddConnectionIdempotent(reg: Registry, a: nat, b: nat)
    requires a < |reg| && b < |reg|
    ensures AddConnection(AddConnection(reg, a, b), a, b) == AddConnection(reg, a, b)
  {
  }

  // ---------------------------------------------------------------------------
  // transfer_funds
  // ---------------------------------------------------------------------------

  datatype TransferError = InvalidAmount | InsufficientFunds

  datatype TransferStatus = Completed(tx: Transaction) | Failed(error: TransferError)

  /** The registry after a transfer attempt, and whether it succeeded. */
  datatype TransferOutcome = TransferOutcome(registry: Registry, status: TransferStatus)

  /** `sender.transfer_funds(recipient, amount, description)`. The amount is
      checked before the funds; on success the sender is debited, the
      recipient credited, and one record appended to the sender's and then to
      the recipient's history (both to the same list when they are one agent). */
  function Transfer(reg: Registry, from: nat, to: nat, amount: real, description: string, timestamp: int): (r: TransferOutcome)
    requires from < |reg| && to < |reg|
    // Error cases, amount check first; a failure changes nothing.
    ensures amount <= 0.0 ==> r.status == Failed(InvalidAmount)
    ensures amount > 0.0 && reg[from].balance < amount ==> r.status == Failed(InsufficientFunds)
    ensures r.status.Failed? ==> r.registry == reg
    ensures r.status.Completed? <==> 0.0 < amount <= reg[from].balance
    // On success: the record, and nothing but the two parties' balances and histories change.
    ensures r.status.Completed? ==>
              && r.status.tx == Transaction(reg[from].id, reg[to].id, amount, description, timestamp)
              && |r.registry| == |reg|
              && (forall k :: 0 <= k < |reg| && k != from && k != to ==> r.registry[k] == reg[k])
              && (forall k :: 0 <= k < |reg| ==>
                    r.registry[k] == reg[k].(balance := r.registry[k].balance, history := r.registry[k].history))
    // Between two distinct agents: debit, credit, and one record each.
    ensures r.status.Completed? && from != to ==>
              && r.registry[from].balance == reg[from].balance - amount
              && r.registry[to].balance == reg[to].balance + amount
              && r.registry[from].history == reg[from].history + [r.status.tx]
              && r.registry[to].history == reg[to].history + [r.status.tx]
    // To oneself: the balance is unchanged and the record lands twice.
    ensures r.status.Completed? && from == to ==>
              && r.registry[from].balance == reg[from].balance
              && r.registry[from].history == reg[from].history + [r.status.tx, r.status.tx]
  {
    if amount <= 0.0 then TransferOutcome(reg, Failed(InvalidAmount))
    else if reg[from].balance < amount then TransferOutcome(reg, Failed(InsufficientFunds))
    else
      var tx := Transaction(reg[from].id, reg[to].id, amount, description, timestamp);
      TransferOutcome(Settle(reg, from, to, tx), Completed(tx))
  }

  /** The updates of a completed transfer, in order: debit the sender, credit
      the recipient, append the record to the sender's history, then to the
      recipient's. */
  function Settle(reg: Registry, from: nat, to: nat, tx: Transaction): Registry
    requires from < |reg| && to < |reg|
  {
    RecordOnBoth(MoveFunds(reg, from, to, tx.amount), from, to, tx)
  }

  /** Debit `from`, then credit `to`. */
  function MoveFunds(reg: Registry, from: nat, to: nat, amount: real): (r: Registry)
    requires from < |reg| && to < |reg|
    ensures |r| == |reg|
  {
    AddToBalance(AddToBalance(reg, from, -amount), to, amount)
  }

  /** Append `tx` to the history of `from`, then of `to`. */
  function RecordOnBoth(reg: Registry, from: nat, to: nat, tx: Transaction): (r: Registry)
    requires from < |reg| && to < |reg|
    ensures |r| == |reg|
  {
    AppendRecord(AppendRecord(reg, from, tx), to, tx)
  }

  /** Agent `i`'s balance changed by `delta`. */
  function AddToBalance(reg: Registry, i: nat, delta: real): (r: Registry)
    requires i < |reg|
    ensures |r| == |reg|
  {
    reg[i := reg[i].(balance := reg[i].balance + delta)]
  }

  /** `tx` appended to agent `i`'s history. */
  function AppendRecord(reg: Registry, i: nat, tx: Transaction): (r: Registry)
    requires i < |reg|
    ensures |r| == |reg|
  {
    reg[i := reg[i].(history := reg[i].history + [tx])]
  }

  lemma AddToBalanceTotal(reg: Registry, i: nat, delta: real)
    requires i < |reg|
    ensures TotalBalance(AddToBalance(reg, i, delta)) == TotalBalance(reg) + delta
  {
    TotalBalanceUpdate(reg, i, reg[i].(balance := reg[i].balance + delta));
  }

  lemma AppendRecordTotal(reg: Registry, i: nat, tx: Transaction)
    requires i < |reg|
    ensures TotalBalance(AppendRecord(reg, i, tx)) == TotalBalance(reg)
  {
    TotalBalanceUpdate(reg, i, reg[i].(history := reg[i].history + [tx]));
  }

  /** Moving funds between two accounts keeps the total. */
  lemma MoveFundsConservesTotal(reg: Registry, from: nat, to: nat, amount: real)
    requires from < |reg| && to < |reg|
    ensures TotalBalance(MoveFunds(reg, from, to, amount)) == TotalBalance(reg)
  {
    AddToBalanceTotal(reg, from, -amount);
    AddToBalanceTotal(AddToBalance(reg, from, -amount), to, amount);
  }

  /** Recording a transaction leaves every balance, and so the total, alone. */
  lemma RecordOnBothKeepsTotal(reg: Registry, from: nat, to: nat, tx: Transaction)
    requires from < |reg| && to < |reg|
    ensures TotalBalance(RecordOnBoth(reg, from, to, tx)) == TotalBalance(reg)
  {
    AppendRecordTotal(reg, from, tx);
    AppendRecordTotal(AppendRecord(reg, from, tx), to, tx);
  }

  /** Settling moves money between two accounts and so keeps the total. */
  lemma SettleConservesTotal(reg: Registry, from: nat, to: nat, tx: Transaction)
    requires from < |reg| && to < |reg|
    ensures TotalBalance(Settle(reg, from, to, tx)) == TotalBalance(reg)
  {
    MoveFundsConservesTotal(reg, from, to, tx.amount);
    RecordOnBothKeepsTotal(MoveFunds(reg, from, to, tx.amount), from, to, tx);
  }

  /** A transfer never changes the sum of all balances. */
  lemma TransferConservesTotal(reg: Registry, from: nat, to: nat, amount: real, description: string, timestamp: int)
    requires from < |reg| && to < |reg|
    ensures TotalBalance(Transfer(reg, from, to, amount, description, timestamp).registry) == TotalBalance(reg)
  {
    if 0.0 < amount <= reg[from].balance {
      SettleConservesTotal(reg, from, to, Transaction(reg[from].id, reg[to].id, amount, description, timestamp));
    }
  }

  /** A transfer keeps the registry's graph and well-formedness, and no balance goes negative. */
  lemma TransferKeepsInvariants(reg: Registry, from: nat, to: nat, amount: real, description: string, timestamp: int)
    requires from < |reg| && to < |reg|
    requires WellFormed(reg) && NonNegativeBalances(reg)
    ensures SameGraph(reg, Transfer(reg, from, to, amount, description, timestamp).registry)
    ensures WellFormed(Transfer(reg, from, to, amount, description, timestamp).registry)
    ensures NonNegativeBalances(Transfer(reg, from, to, amount, description, timestamp).registry)
  {
  }

  /** A transfer of 50 from a balance of 100 to a balance of 0 leaves 50 on each side. */
  lemma TransferScenario(reg: Registry, description: string, timestamp: int)
    requires |reg| == 2 && reg[0].balance == 100.0 && reg[1].balance == 0.0
    ensures Transfer(reg, 0, 1, 50.0, description, timestamp).registry[0].balance == 50.0
    ensures Transfer(reg, 0, 1, 50.0, description, timestamp).registry[1].balance == 50.0
    ensures |Transfer(reg, 0, 1, 50.0, description, timestamp).registry[0].history| == |reg[0].history| + 1
    ensures |Transfer(reg, 0, 1, 50.0, description, timestamp).registry[1].history| == |reg[1].history| + 1
  {
  }

  /** A transfer of 150 from a balance of 100 fails for insufficient funds. */
  lemma InsufficientFundsScenario(reg: Registry, description: string, timestamp: int)
    requires |reg| == 2 && reg[0].balance == 100.0
    ensures Transfer(reg, 0, 1, 150.0, description, timestamp) == TransferOutcome(reg, Failed(InsufficientFunds))
  {
  }

  // ---------------------------------------------------------------------------
  // update_state
  // ---------------------------------------------------------------------------

  /** The keyword arguments of `update_state` that name modelled attributes;
      a key is either present with a new value or absent. */
  datatype StateUpdate = StateUpdate(
    balance: Option<real>,
    connections: Option<seq<nat>>,
    history: Option<seq<Transaction>>)

  /** `update_state(**kwargs)`: overwrites each named attribute, nothing else. */
  function UpdateState(a: Agent, u: StateUpdate): (r: Agent)
    // Identity, name and category are never touched.
    ensures r.id == a.id && r.name == a.name && r.category == a.category
    // An absent key leaves its attribute alone; a present one sets it.
    ensures u.balance.None? ==> r.balance == a.balance
    ensures u.balance.Some? ==> r.balance == u.balance.value
    ensures u.connections.None? ==> r.connections == a.connections
    ensures u.connections.Some? ==> r.connections == u.connections.value
    ensures u.history.None? ==> r.history == a.history
    ensures u.history.Some? ==> r.history == u.history.value
  {
    a.(balance := if u.balance.Some? then u.balance.value else a.balance,
       connections := if u.connections.Some? then u.connections.value else a.connections,
       history := if u.history.Some? then u.history.value else a.history)
  }

  /** Applying the same update twice is the same as applying it once. */
  lemma UpdateStateIdempotent(a: Agent, u: StateUpdate)
    ensures UpdateState(UpdateState(a, u), u) == UpdateState(a, u)
  {
  }

  /** An update with no keys is the identity. */
  lemma EmptyUpdateIsIdentity(a: Agent)
    ensures UpdateState(a, StateUpdate(None, None, None)) == a
  {
  }
}

=== FILE: asset_prices.dfy ===
/**
 The daily price adjustment (`_update_asset_prices`): for every asset class,
 the price at the current day's index is multiplied by a sentiment factor and
 a volatility factor derived from the market state; every other index is left
 alone. Price series are keyed by asset-class name.
 */
module AssetPrices {
  import opened MarketState

  type PriceTable = map<string, seq<real>>

  const SentimentWeight: real := 0.01
  const VolatilityWeight: real := 0.1
  const ReferenceVolatility: real := 0.15

  function SentimentFactor(s: Indicators): real
  {
    1.0 + s.marketSentiment * SentimentWeight
  }

  function VolatilityFactor(s: Indicators): real
  {
    1.0 + (s.marketVolatility - ReferenceVolatility) * VolatilityWeight
  }

  /** A price after the day's sentiment and volatility adjustment. */
  function Adjusted(price: real, s: Indicators): real
  {
    price * SentimentFactor(s) * VolatilityFactor(s)
  }

  /** Adjusts one series at index `day`. */
  function AdjustSeries(prices: seq<real>, day: nat, s: Indicators): (r: seq<real>)
    requires day < |prices|
    ensures |r| == |prices|
    ensures forall i :: 0 <= i < |prices| && i != day ==> r[i] == prices[i]
    ensures r[day] == Adjusted(prices[day], s)
  {
    prices[day := Adjusted(prices[day], s)]
  }

  predicate CoversDay(table: PriceTable, day: nat)
  {
    forall k :: k in table ==> day < |table[k]|
  }

  /** Adjusts every asset class's series at index `day`. */
  function UpdateAssetPrices(table: PriceTable, day: nat, s: Indicators): (r: PriceTable)
    requires CoversDay(table, day)
    ensures r.Keys == table.Keys
    ensures forall k :: k in table ==> |r[k]| == |table[k]|
    ensures forall k, i :: k in table && 0 <= i < |table[k]| && i != day ==> r[k][i] == table[k][i]
    ensures forall k :: k in table ==>
              r[k][day] == Adjusted(table[k][day], s)
  {
    map k | k in table :: AdjustSeries(table[k], day, s)
  }

  /** With bounded sentiment and volatility the two factors stay in a narrow, positive band. */
  lemma FactorBounds(s: Indicators)
    requires SentimentInBounds(s) && s.marketVolatility >= MinVolatility
    ensures 0.99 <= SentimentFactor(s) <= 1.01
    ensures VolatilityFactor(s) >= 0.986
  {
  }

  predicate AllPositive(table: PriceTable)
  {
    forall k, i :: k in table && 0 <= i < |table[k]| ==> table[k][i] > 0.0
  }

  /** The adjustment keeps every price strictly positive. */
  lemma UpdateKeepsPricesPositive(table: PriceTable, day: nat, s: Indicators)
    requires CoversDay(table, day) && AllPositive(table)
    requires SentimentInBounds(s) && s.marketVolatility >= MinVolatility
    ensures AllPositive(UpdateAssetPrices(table, day, s))
  {
    FactorBounds(s);
    var r := UpdateAssetPrices(table, day, s);
    forall k, i | k in r && 0 <= i < |r[k]|
      ensures r[k][i] > 0.0
    {
      if i == day {
        var f := SentimentFactor(s) * VolatilityFactor(s);
        assert f > 0.0;
        assert r[k][i] == table[k][day] * f;
      }
    }
  }
}

=== FILE: connections.dfy ===
/**
 Building the connection graph once all agents exist
 (`_establish_connections`): the first agent named as the central bank is
 connected to every financial institution, then the first agent named as the
 stock exchange is connected to every financial institution and every direct
 participant. Both passes visit the registry in order and use
 `add_connection`, so every edge is added in both directions.
 */
module Connections {
  import opened Wrappers
  import opened Agents

  const CentralBankName: string := "中央银行"
  const ExchangeName: string := "证券交易所"

  /** Which agents a hub is connected to. */
  datatype HubRule = CentralBankRule | ExchangeRule

  predicate Selects(rule: HubRule, c: Category)
  {
    match rule
    case CentralBankRule => c == FinancialInstitutions
    case ExchangeRule => c == FinancialInstitutions || c == DirectParticipants
  }

  /** `x`–`y` is an edge between `hub` and an agent at position `from` or later that `rule` selects. */
  predicate HubEdge(reg: Registry, hub: nat, rule: HubRule, from: nat, x: int, y: int)
  {
    || (x == hub && from <= y < |reg| && Selects(rule, reg[y].category))
    || (y == hub && from <= x < |reg| && Selects(rule, reg[x].category))
  }

  /** Connects `hub` to every selected agent at position `k` or later, in order. */
  function ConnectHub(reg: Registry, hub: nat, rule: HubRule, k: nat): (r: Registry)
    requires hub < |reg| && k <= |reg|
    decreases |reg| - k
    ensures |r| == |reg|
    ensures forall i :: 0 <= i < |reg| ==> r[i] == reg[i].(connections := r[i].connections)
    ensures Symmetric(reg) ==> Symmetric(r)
    ensures Symmetric(reg) ==>
              forall x, y :: Connected(r, x, y) <==> Connected(reg, x, y) || HubEdge(reg, hub, rule, k, x, y)
  {
    if k == |reg| then reg
    else
      var next := if Selects(rule, reg[k].category) then AddConnection(reg, hub, k) else reg;
      ConnectHub(next, hub, rule, k + 1)
  }

  /** Connects `hub` to every agent `rule` selects, when the lookup found a hub. */
  function ConnectIfPresent(reg: Registry, hub: Option<nat>, rule: HubRule): Registry
    requires hub.Some? ==> hub.value < |reg|
  {
    if hub.Some? then ConnectHub(reg, hub.value, rule, 0) else reg
  }

  /** An edge a present hub adds under `rule`. */
  predicate NewEdge(reg: Registry, hub: Option<nat>, rule: HubRule, x: int, y: int)
  {
    hub.Some? && HubEdge(reg, hub.value, rule, 0, x, y)
  }

  /** `_establish_connections` on a registry with a symmetric graph. */
  function EstablishConnections(reg: Registry): (r: Registry)
    ensures |r| == |reg|
    // Only connection lists change.
    ensures forall i :: 0 <= i < |reg| ==> r[i] == reg[i].(connections := r[i].connections)
    ensures Symmetric(reg) ==> Symmetric(r)
    // The graph gains exactly the central-bank and exchange edges.
    ensures Symmetric(reg) ==>
              forall x, y :: Connected(r, x, y) <==>
                || Connected(reg, x, y)
                || NewEdge(reg, FindByName(reg, CentralBankName), CentralBankRule, x, y)
                || NewEdge(reg, FindByName(reg, ExchangeName), ExchangeRule, x, y)
  {
    var afterBank := ConnectIfPresent(reg, FindByName(reg, CentralBankName), CentralBankRule);
    FindByNameOnlyReadsNames(reg, afterBank, ExchangeName);
    var r := ConnectIfPresent(afterBank, FindByName(afterBank, ExchangeName), ExchangeRule);
    assert forall x, y ::
      NewEdge(afterBank, FindByName(reg, ExchangeName), ExchangeRule, x, y) <==>
      NewEdge(reg, FindByName(reg, ExchangeName), ExchangeRule, x, y);
    r
  }

  /** A registry with no connections at all is trivially symmetric. */
  lemma NoConnectionsIsSymmetric(reg: Registry)
    requires forall i :: 0 <= i < |reg| ==> reg[i].connections == []
    ensures Symmetric(reg)
  {
  }

  /** Building the graph keeps the registry well formed and its connection lists duplicate-free. */
  lemma {:induction false} ConnectHubKeepsInvariants(reg: Registry, hub: nat, rule: HubRule, k: nat)
    requires hub < |reg| && k <= |reg|
    requires WellFormed(reg) && Symmetric(reg) && DistinctConnections(reg)
    decreases |reg| - k
    ensures WellFormed(ConnectHub(reg, hub, rule, k))
    ensures DistinctConnections(ConnectHub(reg, hub, rule, k))
  {
    if k < |reg| {
      var next := if Selects(rule, reg[k].category) then AddConnection(reg, hub, k) else reg;
      if Selects(rule, reg[k].category) {
        AddConnectionKeepsInvariants(reg, hub, k);
      }
      ConnectHubKeepsInvariants(next, hub, rule, k + 1);
    }
  }

  /** The whole graph build keeps the registry well formed, symmetric and duplicate-free. */
  lemma EstablishConnectionsKeepsInvariants(reg: Registry)
    requires WellFormed(reg) && Symmetric(reg) && DistinctConnections(reg)
    ensures WellFormed(EstablishConnections(reg))
    ensures Symmetric(EstablishConnections(reg))
    ensures DistinctConnections(EstablishConnections(reg))
  {
    var bank := FindByName(reg, CentralBankName);
    if bank.Some? {
      ConnectHubKeepsInvariants(reg, bank.value, CentralBankRule, 0);
    }
    var afterBank := ConnectIfPresent(reg, bank, CentralBankRule);
    FindByNameOnlyReadsNames(reg, afterBank, ExchangeName);
    var exchange := FindByName(afterBank, ExchangeName);
    if exchange.Some? {
      ConnectHubKeepsInvariants(afterBank, exchange.value, ExchangeRule, 0);
    }
  }
}

=== FILE: dated_series.dfy ===
/**
 The pandas wrapping of the price and interest-rate paths. Both generators
 label their values with `pd.date_range(end - days, end, freq='D')`, which
 includes both end points and so yields `days + 1` daily labels (none when
 `days` is negative, because the start then lies after the end); the Series
 constructor refuses a value sequence and a label sequence of different
 lengths. As written, the labels never match the values of a price path and
 match a rate path only when `days` is 0. The evidently intended index has
 one label per simulated day, `pd.date_range(end=end, periods=days)`.
 */
module DatedSeries {
  import opened MarketUtils

  /** A labelled series, or the constructor's length-mismatch error. */
  datatype Series<T> = Labelled(values: seq<T>) | LengthMismatch(valueCount: nat, labelCount: nat)

  /** `pd.Series(values, index=labels)` for `labels` daily labels. */
  function MakeSeries<T>(values: seq<T>, labels: nat): (r: Series<T>)
    ensures r.Labelled? <==> |values| == labels
    ensures r.Labelled? ==> r.values == values
    ensures r.LengthMismatch? ==> r == LengthMismatch(|values|, labels)
  {
    if |values| == labels then Labelled(values) else LengthMismatch(|values|, labels)
  }

  /** The length of `pd.date_range(end - days, end, freq='D')`, as written. */
  function WrittenRangeLength(days: int): nat
  {
    if days >= 0 then days + 1 else 0
  }

  /** The length of `pd.date_range(end=end, periods=days)`, one label per day. */
  function IntendedRangeLength(days: int): nat
  {
    if days >= 0 then days else 0
  }

  /** As written, `generate_price_series` can never build its Series: there
      is always one label more than there are prices. */
  lemma PriceSeriesAsWrittenFails(prices: seq<real>, initialPrice: real, drift: real, volatility: real, z: seq<real>)
    requires IsPricePath(prices, initialPrice, Multipliers(drift, volatility, z))
    ensures MakeSeries(prices, WrittenRangeLength(|z|)) == LengthMismatch(|z|, |z| + 1)
  {
  }

  /** As written, `simulate_interest_rates` builds its Series exactly when `days` is 0. */
  lemma RateSeriesAsWritten(rates: seq<real>, initial: real, days: int, volatility: real, speed: real, mean: real, z: seq<real>)
    requires |z| == RatePathLength(days) - 1
    requires IsRatePath(rates, initial, speed, mean, volatility, z)
    ensures MakeSeries(rates, WrittenRangeLength(days)).Labelled? <==> days == 0
  {
  }

  /** `generate_price_series` with one label per day: the Series always
      exists and holds the generated path. */
  method GenerateDatedPriceSeries(initialPrice: real, drift: real, volatility: real, z: seq<real>)
    returns (r: Series<real>)
    ensures r.Labelled?
    ensures |r.values| == |z|
    ensures IsPricePath(r.values, initialPrice, Multipliers(drift, volatility, z))
  {
    var prices := GeneratePriceSeries(initialPrice, drift, volatility, z);
    r := MakeSeries(prices, IntendedRangeLength(|z|));
  }

  /** `simulate_interest_rates` with one label per day: the Series exists
      exactly when at least one day is simulated, and then holds the path. */
  method SimulateDatedInterestRates(initial: real, days: int, volatility: real, speed: real, mean: real, z: seq<real>)
    returns (r: Series<real>)
    requires |z| == RatePathLength(days) - 1
    ensures r.Labelled? <==> days >= 1
    ensures r.Labelled? ==> |r.values| == days && IsRatePath(r.values, initial, speed, mean, volatility, z)
  {
    var rates := SimulateInterestRates(initial, days, volatility, speed, mean, z);
    r := MakeSeries(rates, IntendedRangeLength(days));
  }
}

=== FILE: events.dfy ===
/**
 The daily random-event step (`_process_events`). A Bernoulli trial decides
 whether an event fires; on firing, a category and a magnitude are drawn, an
 event record is appended to the log and a category-specific linear effect is
 applied to the market state, after which sentiment and volatility are pulled
 back into their bounds. All three draws are explicit inputs.
 */
module Events {
  import opened MarketState

  /** The five event categories, in the order the source lists them. */
  datatype EventKind =
    | EconomicNews
    | PoliticalEvent
    | NaturalDisaster
    | TechnologyBreakthrough
    | RegulatoryChange

  /** A logged event: the simulation day, its category and magnitude.
      The calendar date is the start date plus `day` and is not stored. */
  datatype Event = Event(day: nat, kind: EventKind, magnitude: real)

  /** The draws of one day: a uniform trial in [0, 1), the chosen category and
      a magnitude drawn uniformly from [-0.1, 0.1]. */
  datatype EventDraw = EventDraw(trial: real, kind: EventKind, magnitude: real)

  const MaxMagnitude: real := 0.1

  predicate ValidDraw(d: EventDraw)
  {
    0.0 <= d.trial < 1.0 && -MaxMagnitude <= d.magnitude <= MaxMagnitude
  }

  /** The market state and event log after one day's event step. */
  datatype EventStep = EventStep(state: Indicators, log: seq<Event>)

  /** The category's raw linear effect, before the re-clamp. */
  function RawEffect(s: Indicators, kind: EventKind, m: real): Indicators
  {
    match kind
    case EconomicNews =>
      s.(marketSentiment := s.marketSentiment + m * 2.0,
         economicGrowth := s.economicGrowth + m * 0.01)
    case PoliticalEvent =>
      s.(marketVolatility := s.marketVolatility + Abs(m) * 0.05,
         marketSentiment := s.marketSentiment + m)
    case NaturalDisaster =>
      s.(marketSentiment := s.marketSentiment - Abs(m) * 0.5,
         economicGrowth := s.economicGrowth - Abs(m) * 0.005)
    case TechnologyBreakthrough =>
      s.(marketSentiment := s.marketSentiment + Abs(m),
         economicGrowth := s.economicGrowth + Abs(m) * 0.002)
    case RegulatoryChange =>
      s.(marketVolatility := s.marketVolatility + m * 0.02)
  }

  /** Applies an event's effect and re-clamps sentiment and volatility. */
  function ApplyEffect(s: Indicators, kind: EventKind, m: real): (r: Indicators)
    // Only sentiment, growth and volatility can change.
    ensures r.interestRate == s.interestRate
    ensures r.inflationRate == s.inflationRate
    ensures r.liquidityFactor == s.liquidityFactor
    ensures r.unemploymentRate == s.unemploymentRate
    // Afterwards the two re-clamped fields are within their bounds.
    ensures SentimentInBounds(r) && r.marketVolatility >= MinVolatility
    // A regulatory change leaves sentiment (when already in bounds) and growth alone.
    ensures kind == RegulatoryChange ==> r.economicGrowth == s.economicGrowth
    ensures kind == RegulatoryChange && SentimentInBounds(s) ==> r.marketSentiment == s.marketSentiment
    // Only political events and regulatory changes touch volatility.
    ensures kind !in {PoliticalEvent, RegulatoryChange} && s.marketVolatility >= MinVolatility ==>
              r.marketVolatility == s.marketVolatility
    // A political event never lowers volatility.
    ensures kind == PoliticalEvent ==> r.marketVolatility >= s.marketVolatility
    // The size of each category's effect, before the re-clamp.
    ensures kind == EconomicNews ==>
              && ClampedTo(s.marketSentiment + m * 2.0, MinSentiment, MaxSentiment, r.marketSentiment)
              && r.economicGrowth == s.economicGrowth + m * 0.01
              && FlooredAt(s.marketVolatility, MinVolatility, r.marketVolatility)
    ensures kind == PoliticalEvent ==>
              && ClampedTo(s.marketSentiment + m, MinSentiment, MaxSentiment, r.marketSentiment)
              && FlooredAt(s.marketVolatility + Abs(m) * 0.05, MinVolatility, r.marketVolatility)
              && r.economicGrowth == s.economicGrowth
    ensures kind == NaturalDisaster ==>
              && ClampedTo(s.marketSentiment - Abs(m) * 0.5, MinSentiment, MaxSentiment, r.marketSentiment)
              && r.economicGrowth == s.economicGrowth - Abs(m) * 0.005
              && FlooredAt(s.marketVolatility, MinVolatility, r.marketVolatility)
    ensures kind == TechnologyBreakthrough ==>
              && ClampedTo(s.marketSentiment + Abs(m), MinSentiment, MaxSentiment, r.marketSentiment)
              && r.economicGrowth == s.economicGrowth + Abs(m) * 0.002
              && FlooredAt(s.marketVolatility, MinVolatility, r.marketVolatility)
    ensures kind == RegulatoryChange ==>
              && ClampedTo(s.marketSentiment, MinSentiment, MaxSentiment, r.marketSentiment)
              && FlooredAt(s.marketVolatility + m * 0.02, MinVolatility, r.marketVolatility)
  {
    var raw := RawEffect(s, kind, m);
    raw.(marketSentiment := Clamp(MinSentiment, MaxSentiment, raw.marketSentiment),
         marketVolatility := LowerClamp(MinVolatility, raw.marketVolatility))
  }

  /** One day's event step: fires exactly when the trial is below `probability`. */
  function ProcessEvents(s: Indicators, log: seq<Event>, day: nat, probability: real, d: EventDraw): (r: EventStep)
    requires ValidDraw(d)
    // At most one event per call; the old log is kept as a prefix.
    ensures |log| <= |r.log| <= |log| + 1
    ensures r.log[..|log|] == log
    // An event is logged exactly when the trial is below the probability.
    ensures |r.log| == |log| + 1 <==> d.trial < probability
    ensures |r.log| == |log| ==> r.state == s
    // The logged record carries the current day, the category and a bounded magnitude.
    ensures |r.log| == |log| + 1 ==>
              && r.log[|log|].day == day
              && r.log[|log|].kind == d.kind
              && r.log[|log|].magnitude == d.magnitude
              && -MaxMagnitude <= r.log[|log|].magnitude <= MaxMagnitude
    ensures |r.log| == |log| + 1 ==> r.state == ApplyEffect(s, d.kind, d.magnitude)
  {
    if d.trial < probability then
      EventStep(ApplyEffect(s, d.kind, d.magnitude), log + [Event(day, d.kind, d.magnitude)])
    else
      EventStep(s, log)
  }

  /** The event step keeps every declared bound of the market state. */
  lemma ProcessEventsKeepsBounds(s: Indicators, log: seq<Event>, day: nat, probability: real, d: EventDraw)
    requires ValidDraw(d) && InBounds(s)
    ensures InBounds(ProcessEvents(s, log, day, probability, d).state)
  {
  }

  /** With sentiment in bounds, a natural disaster never raises sentiment or growth. */
  lemma NaturalDisasterNeverRaises(s: Indicators, m: real)
    requires SentimentInBounds(s)
    ensures ApplyEffect(s, NaturalDisaster, m).marketSentiment <= s.marketSentiment
    ensures ApplyEffect(s, NaturalDisaster, m).economicGrowth <= s.economicGrowth
  {
  }

  /** With sentiment in bounds, a technology breakthrough never lowers sentiment or growth. */
  lemma TechnologyBreakthroughNeverLowers(s: Indicators, m: real)
    requires SentimentInBounds(s)
    ensures ApplyEffect(s, TechnologyBreakthrough, m).marketSentiment >= s.marketSentiment
    ensures ApplyEffect(s, TechnologyBreakthrough, m).economicGrowth >= s.economicGrowth
  {
  }

  /** Economic news moves sentiment and growth in the direction of the magnitude's sign. */
  lemma EconomicNewsFollowsSign(s: Indicators, m: real)
    requires SentimentInBounds(s)
    ensures m >= 0.0 ==> ApplyEffect(s, EconomicNews, m).marketSentiment >= s.marketSentiment
    ensures m >= 0.0 ==> ApplyEffect(s, EconomicNews, m).economicGrowth >= s.economicGrowth
    ensures m <= 0.0 ==> ApplyEffect(s, EconomicNews, m).marketSentiment <= s.marketSentiment
    ensures m <= 0.0 ==> ApplyEffect(s, EconomicNews, m).economicGrowth <= s.economicGrowth
  {
  }
}

=== FILE: interactions.dfy ===
/**
 The daily agent interaction step (`_execute_agent_interactions`). The step
 makes `min(10, n div 2)` attempts. Each attempt picks an initiator and a
 distinct partner. Unless the partner is in the initiator's connection list,
 the attempt does nothing. Otherwise it is either a message, which changes no
 state, or a payment: when the initiator's balance is positive it transfers
 a uniform draw from `[0, balance * 0.01]` to the partner and logs the record
 in the global ledger if the transfer succeeds. The random picks and the clock
 reading of each attempt are explicit inputs.
 */
module Interactions {
  import opened Agents

  const MaxInteractions: nat := 10
  const TransferShare: real := 0.01
  const PaymentDescription: string := "随机交易"

  /** `min(10, n // 2)`. */
  function NumInteractions(n: nat): (r: nat)
    ensures r <= MaxInteractions && r <= n / 2
    ensures r == MaxInteractions || r == n / 2
  {
    if MaxInteractions <= n / 2 then MaxInteractions else n / 2
  }

  datatype InteractionKind = Message | Payment

  /** The draws of one attempt: the initiator's position; the partner's
      position in the list of all other agents; the interaction kind; the
      uniform draw in [0, 1) that scales the amount; the clock reading. */
  datatype Attempt = Attempt(initiator: nat, other: nat, kind: InteractionKind, fraction: real, timestamp: int)

  predicate ValidAttempt(n: nat, at: Attempt)
  {
    at.initiator < n && at.other + 1 < n && 0.0 <= at.fraction < 1.0
  }

  predicate ValidAttempts(n: nat, ats: seq<Attempt>)
  {
    forall i :: 0 <= i < |ats| ==> ValidAttempt(n, ats[i])
  }

  /** The partner's registry position: the list of other agents skips the initiator. */
  function Partner(at: Attempt): (p: nat)
    ensures p != at.initiator
    ensures p == at.other || p == at.other + 1
  {
    if at.other < at.initiator then at.other else at.other + 1
  }

  /** Every agent other than the initiator is the partner of exactly one
      position in the list of other agents, so the draw can reach each of them. */
  lemma PartnerOnto(n: nat, initiator: nat, j: nat, kind: InteractionKind, fraction: real, timestamp: int)
    requires initiator < n && j < n && j != initiator
    ensures var other := if j < initiator then j else j - 1;
            && other + 1 < n
            && Partner(Attempt(initiator, other, kind, fraction, timestamp)) == j
    ensures forall other :: Partner(Attempt(initiator, other, kind, fraction, timestamp)) == j ==>
              other == (if j < initiator then j else j - 1)
  {
  }

  /** `random.uniform(0, balance * 0.01)`, computed as Python does from a uniform draw in [0, 1). */
  function PaymentAmount(balance: real, fraction: real): (r: real)
    requires balance > 0.0 && 0.0 <= fraction < 1.0
    ensures 0.0 <= r <= balance * TransferShare
    ensures r < balance
    ensures r > 0.0 <==> fraction > 0.0
  {
    fraction * (balance * TransferShare)
  }

  /** Agent balances and histories together with the global transaction ledger. */
  datatype Accounts = Accounts(registry: Registry, ledger: seq<Transaction>)

  /** One interaction attempt. */
  function Interact(acc: Accounts, at: Attempt): (r: Accounts)
    requires ValidAttempt(|acc.registry|, at)
    ensures SameGraph(acc.registry, r.registry)
    ensures |acc.ledger| <= |r.ledger| <= |acc.ledger| + 1
    ensures r.ledger[..|acc.ledger|] == acc.ledger
    // The ledger grows exactly for a payment over an existing edge with a positive amount.
    ensures |r.ledger| == |acc.ledger| + 1 <==>
              && at.kind == Payment
              && Connected(acc.registry, at.initiator, Partner(at))
              && acc.registry[at.initiator].balance > 0.0
              && at.fraction > 0.0
    ensures |r.ledger| == |acc.ledger| ==> r.registry == acc.registry
    // A logged payment moves at most 1% of the initiator's balance to its partner.
    ensures |r.ledger| == |acc.ledger| + 1 ==>
              var tx := r.ledger[|acc.ledger|];
              && tx.source == acc.registry[at.initiator].id
              && tx.target == acc.registry[Partner(at)].id
              && 0.0 < tx.amount <= acc.registry[at.initiator].balance * TransferShare
              && tx.description == PaymentDescription
              && r.registry == Transfer(acc.registry, at.initiator, Partner(at), tx.amount, PaymentDescription, at.timestamp).registry
  {
    var a := at.initiator;
    var b := Partner(at);
    if Connected(acc.registry, a, b) && at.kind == Payment && acc.registry[a].balance > 0.0 then
      var amount := PaymentAmount(acc.registry[a].balance, at.fraction);
      var outcome := Transfer(acc.registry, a, b, amount, PaymentDescription, at.timestamp);
      match outcome.status
      case Completed(tx) => Accounts(outcome.registry, acc.ledger + [tx])
      case Failed(_) => acc
    else
      acc
  }

  /** A ledger entry made by the interaction step over the graph of `reg`. */
  predicate PeerPayment(reg: Registry, tx: Transaction)
  {
    && tx.source != tx.target
    && Connected(reg, tx.source, tx.target)
    && tx.amount > 0.0
    && tx.description == PaymentDescription
  }

  /** A sequence of attempts, in order. */
  function RunInteractions(acc: Accounts, ats: seq<Attempt>): (r: Accounts)
    requires WellFormed(acc.registry)
    requires ValidAttempts(|acc.registry|, ats)
    decreases |ats|
    ensures SameGraph(acc.registry, r.registry)
    ensures WellFormed(r.registry)
    ensures |acc.ledger| <= |r.ledger| <= |acc.ledger| + |ats|
    ensures r.ledger[..|acc.ledger|] == acc.ledger
    ensures forall i :: |acc.ledger| <= i < |r.ledger| ==> PeerPayment(acc.registry, r.ledger[i])
  {
    if |ats| == 0 then acc
    else
      var next := Interact(acc, ats[0]);
      assert |next.ledger| == |acc.ledger| + 1 ==> PeerPayment(acc.registry, next.ledger[|acc.ledger|]);
      RunInteractions(next, ats[1..])
  }

  /** `_execute_agent_interactions`: exactly `min(10, n div 2)` attempts. */
  function ExecuteAgentInteractions(acc: Accounts, ats: seq<Attempt>): (r: Accounts)
    requires WellFormed(acc.registry)
    requires |ats| == NumInteractions(|acc.registry|)
    requires ValidAttempts(|acc.registry|, ats)
    ensures SameGraph(acc.registry, r.registry)
    ensures WellFormed(r.registry)
    ensures |acc.ledger| <= |r.ledger| <= |acc.ledger| + MaxInteractions
    ensures |r.ledger| <= |acc.ledger| + |acc.registry| / 2
    ensures r.ledger[..|acc.ledger|] == acc.ledger
    ensures forall i :: |acc.ledger| <= i < |r.ledger| ==> PeerPayment(acc.registry, r.ledger[i])
  {
    RunInteractions(acc, ats)
  }

  /** One attempt never changes the sum of all balances and never makes a balance negative. */
  lemma InteractPreservesBalances(acc: Accounts, at: Attempt)
    requires ValidAttempt(|acc.registry|, at)
    requires WellFormed(acc.registry) && NonNegativeBalances(acc.registry)
    ensures TotalBalance(Interact(acc, at).registry) == TotalBalance(acc.registry)
    ensures NonNegativeBalances(Interact(acc, at).registry)
  {
    var a := at.initiator;
    var b := Partner(at);
    if Connected(acc.registry, a, b) && at.kind == Payment && acc.registry[a].balance > 0.0 {
      var amount := PaymentAmount(acc.registry[a].balance, at.fraction);
      TransferConservesTotal(acc.registry, a, b, amount, PaymentDescription, at.timestamp);
      TransferKeepsInvariants(acc.registry, a, b, amount, PaymentDescription, at.timestamp);
    }
  }

  /** The interaction step never changes the sum of all balances and never makes a balance negative. */
  lemma {:induction false} InteractionsPreserveBalances(acc: Accounts, ats: seq<Attempt>)
    requires WellFormed(acc.registry) && NonNegativeBalances(acc.registry)
    requires ValidAttempts(|acc.registry|, ats)
    decreases |ats|
    ensures TotalBalance(RunInteractions(acc, ats).registry) == TotalBalance(acc.registry)
    ensures NonNegativeBalances(RunInteractions(acc, ats).registry)
  {
    if |ats| > 0 {
      var next := Interact(acc, ats[0]);
      InteractPreservesBalances(acc, ats[0]);
      InteractionsPreserveBalances(next, ats[1..]);
    }
  }

  /** A message, or an attempt between unconnected agents, changes nothing. */
  lemma MessagesChangeNothing(acc: Accounts, at: Attempt)
    requires ValidAttempt(|acc.registry|, at)
    requires at.kind == Message || !Connected(acc.registry, at.initiator, Partner(at))
    ensures Interact(acc, at) == acc
  {
  }
}

=== FILE: market_state.dfy ===
/**
 The shared macro market state of the simulation and its daily random
 perturbation (`_update_market_state`). Each indicator receives a zero-mean
 normal increment with a field-specific standard deviation and is then pulled
 back into its declared bound. The normal draws are explicit inputs: a
 standard normal `z` becomes the increment `sd * z`, which is how a normal
 with mean 0 and standard deviation `sd` is formed from a standard one.
 */
module MarketState {

  /** The seven named indicators of the market state. */
  datatype Indicators = Indicators(
    interestRate: real,
    inflationRate: real,
    marketVolatility: real,
    liquidityFactor: real,
    marketSentiment: real,
    economicGrowth: real,
    unemploymentRate: real)

  /** One standard normal draw per indicator, in the order the step draws them. */
  datatype Noise = Noise(
    interestRate: real,
    inflationRate: real,
    marketVolatility: real,
    liquidityFactor: real,
    marketSentiment: real,
    economicGrowth: real,
    unemploymentRate: real)

  // Standard deviations of the daily increments.
  const InterestRateSd: real := 0.0005
  const InflationRateSd: real := 0.0003
  const VolatilitySd: real := 0.001
  const LiquiditySd: real := 0.01
  const SentimentSd: real := 0.05
  const GrowthSd: real := 0.0002
  const UnemploymentSd: real := 0.0005

  // Declared bounds of the indicators (economic growth has none).
  const MinInterestRate: real := 0.001
  const MinInflationRate: real := 0.0
  const MinVolatility: real := 0.01
  const MinLiquidity: real := 0.5
  const MaxLiquidity: real := 2.0
  const MinSentiment: real := -1.0
  const MaxSentiment: real := 1.0
  const MinUnemployment: real := 0.01
  const MaxUnemployment: real := 0.2

  /** `r` is `x` when `x` is at least `lo`, and `lo` otherwise. */
  predicate FlooredAt(x: real, lo: real, r: real)
  {
    (x >= lo ==> r == x) && (x < lo ==> r == lo)
  }

  /** `r` is `x` when `x` lies in `[lo, hi]`, and the nearer bound otherwise. */
  predicate ClampedTo(x: real, lo: real, hi: real, r: real)
  {
    (lo <= x <= hi ==> r == x) && (x < lo ==> r == lo) && (x > hi ==> r == hi)
  }

  /** Python's `max(a, b)` on two numbers. */
  function Max(a: real, b: real): (r: real)
    ensures r >= a && r >= b
    ensures r == a || r == b
  {
    if a >= b then a else b
  }

  /** Python's `min(a, b)` on two numbers. */
  function Min(a: real, b: real): (r: real)
    ensures r <= a && r <= b
    ensures r == a || r == b
  {
    if a <= b then a else b
  }

  /** Python's `abs` on a number. */
  function Abs(x: real): (r: real)
    ensures r >= 0.0 && (r == x || r == -x)
  {
    if x < 0.0 then -x else x
  }

  /** A product of two non-negative numbers is non-negative. */
  lemma MulNonNegative(a: real, b: real)
    requires a >= 0.0 && b >= 0.0
    ensures a * b >= 0.0
  {
  }

  /** `max(lo, x)`: the lower-bound clamp used for rates and volatility. */
  function LowerClamp(lo: real, x: real): (r: real)
    ensures r >= lo
    ensures FlooredAt(x, lo, r)
  {
    Max(lo, x)
  }

  /** `max(lo, min(hi, x))`: the two-sided clamp used for bounded indicators. */
  function Clamp(lo: real, hi: real, x: real): (r: real)
    requires lo <= hi
    ensures lo <= r <= hi
    ensures ClampedTo(x, lo, hi, r)
  {
    Max(lo, Min(hi, x))
  }

  predicate SentimentInBounds(s: Indicators)
  {
    MinSentiment <= s.marketSentiment <= MaxSentiment
  }

  /** The bounds every indicator except economic growth must keep after each mutation. */
  predicate InBounds(s: Indicators)
  {
    && s.interestRate >= MinInterestRate
    && s.inflationRate >= MinInflationRate
    && s.marketVolatility >= MinVolatility
    && MinLiquidity <= s.liquidityFactor <= MaxLiquidity
    && SentimentInBounds(s)
    && MinUnemployment <= s.unemploymentRate <= MaxUnemployment
  }

  /** The state the simulation starts from. */
  function Initial(): (s: Indicators)
    ensures InBounds(s)
    ensures s.marketSentiment == 0.0
  {
    Indicators(
      interestRate := 0.02,
      inflationRate := 0.03,
      marketVolatility := 0.15,
      liquidityFactor := 1.0,
      marketSentiment := 0.0,
      economicGrowth := 0.02,
      unemploymentRate := 0.05)
  }

  /** One day's perturbation of the market state followed by the clamps. */
  function UpdateMarketState(s: Indicators, z: Noise): (r: Indicators)
    ensures InBounds(r)
    ensures FlooredAt(s.interestRate + InterestRateSd * z.interestRate, MinInterestRate, r.interestRate)
    ensures FlooredAt(s.inflationRate + InflationRateSd * z.inflationRate, MinInflationRate, r.inflationRate)
    ensures FlooredAt(s.marketVolatility + VolatilitySd * z.marketVolatility, MinVolatility, r.marketVolatility)
    ensures ClampedTo(s.liquidityFactor + LiquiditySd * z.liquidityFactor, MinLiquidity, MaxLiquidity, r.liquidityFactor)
    ensures ClampedTo(s.marketSentiment + SentimentSd * z.marketSentiment, MinSentiment, MaxSentiment, r.marketSentiment)
    ensures ClampedTo(s.unemploymentRate + UnemploymentSd * z.unemploymentRate, MinUnemployment, MaxUnemployment, r.unemploymentRate)
    // Economic growth is perturbed but never clamped.
    ensures r.economicGrowth - s.economicGrowth == GrowthSd * z.economicGrowth
  {
    Indicators(
      interestRate := LowerClamp(MinInterestRate, s.interestRate + InterestRateSd * z.interestRate),
      inflationRate := LowerClamp(MinInflationRate, s.inflationRate + InflationRateSd * z.inflationRate),
      marketVolatility := LowerClamp(MinVolatility, s.marketVolatility + VolatilitySd * z.marketVolatility),
      liquidityFactor := Clamp(MinLiquidity, MaxLiquidity, s.liquidityFactor + LiquiditySd * z.liquidityFactor),
      marketSentiment := Clamp(MinSentiment, MaxSentiment, s.marketSentiment + SentimentSd * z.marketSentiment),
      economicGrowth := s.economicGrowth + GrowthSd * z.economicGrowth,
      unemploymentRate := Clamp(MinUnemployment, MaxUnemployment, s.unemploymentRate + UnemploymentSd * z.unemploymentRate))
  }

  /** A day with all-zero noise leaves an in-bounds state exactly as it was:
      the clamps never move a value that is already within its bound. */
  lemma QuietDayIsIdentity(s: Indicators)
    requires InBounds(s)
    ensures UpdateMarketState(s, Noise(0.0, 0.0, 0.0, 0.0, 0.0, 0.0, 0.0)) == s
  {
  }

  /** Clamping is idempotent: clamping an already clamped value changes nothing. */
  lemma ClampIdempotent(lo: real, hi: real, x: real)
    requires lo <= hi
    ensures Clamp(lo, hi, Clamp(lo, hi, x)) == Clamp(lo, hi, x)
    ensures LowerClamp(lo, LowerClamp(lo, x)) == LowerClamp(lo, x)
  {
  }
}

=== FILE: market_utils.dfy ===
/**
 The stochastic process library (`MarketUtils`) restricted to the value
 sequences it produces: the geometric price path, the floored mean-reverting
 interest-rate path, the shock-and-linear-recovery transform and the
 synthetic trading volume. Normal draws are inputs as standard normals `z`;
 a normal with mean `mu` and standard deviation `sigma` is `mu + sigma * z`.
 */
module MarketUtils {
  import opened MarketState

  // ---------------------------------------------------------------------------
  // generate_price_series
  // ---------------------------------------------------------------------------

  /** The per-day multipliers `normal(drift, volatility) + 1`. */
  function Multipliers(drift: real, volatility: real, z: seq<real>): (ms: seq<real>)
    ensures |ms| == |z|
    ensures forall i :: 0 <= i < |z| ==> ms[i] == 1.0 + drift + volatility * z[i]
  {
    seq(|z|, i requires 0 <= i < |z| => 1.0 + drift + volatility * z[i])
  }

  /** The product of a sequence of factors. */
  function Product(ms: seq<real>): real
  {
    if |ms| == 0 then 1.0 else Product(ms[..|ms| - 1]) * ms[|ms| - 1]
  }

  lemma {:induction false} ProductOfOnes(ms: seq<real>)
    requires forall i :: 0 <= i < |ms| ==> ms[i] == 1.0
    ensures Product(ms) == 1.0
  {
    if |ms| > 0 {
      ProductOfOnes(ms[..|ms| - 1]);
    }
  }

  lemma {:induction false} ProductOfPositives(ms: seq<real>)
    requires forall i :: 0 <= i < |ms| ==> ms[i] > 0.0
    ensures Product(ms) > 0.0
  {
    if |ms| > 0 {
      ProductOfPositives(ms[..|ms| - 1]);
    }
  }

  /** `prices[i]` is `initialPrice` times the product of `ms[0..i]`. */
  predicate IsPricePath(prices: seq<real>, initialPrice: real, ms: seq<real>)
  {
    && |prices| == |ms|
    && forall i :: 0 <= i < |ms| ==> prices[i] == initialPrice * Product(ms[..i + 1])
  }

  /** Each price of a path is the previous one times that day's multiplier. */
  lemma PricePathSteps(prices: seq<real>, initialPrice: real, ms: seq<real>)
    requires IsPricePath(prices, initialPrice, ms)
    ensures |ms| > 0 ==> prices[0] == initialPrice * ms[0]
    ensures forall i :: 0 < i < |ms| ==> prices[i] == prices[i - 1] * ms[i]
  {
    if |ms| > 0 {
      assert ms[..1][..0] == [];
      assert Product(ms[..1]) == ms[0];
    }
    forall i | 0 < i < |ms|
      ensures prices[i] == prices[i - 1] * ms[i]
    {
      assert ms[..i + 1][..i] == ms[..i];
    }
  }

  /** With every multiplier 1 the path is constant. */
  lemma FlatPricePath(prices: seq<real>, initialPrice: real, ms: seq<real>)
    requires IsPricePath(prices, initialPrice, ms)
    requires forall i :: 0 <= i < |ms| ==> ms[i] == 1.0
    ensures forall i :: 0 <= i < |ms| ==> prices[i] == initialPrice
  {
    forall i | 0 <= i < |ms|
      ensures prices[i] == initialPrice
    {
      ProductOfOnes(ms[..i + 1]);
    }
  }

  /** With positive multipliers a positive initial price stays positive. */
  lemma PositivePricePath(prices: seq<real>, initialPrice: real, ms: seq<real>)
    requires IsPricePath(prices, initialPrice, ms)
    requires initialPrice > 0.0 && forall i :: 0 <= i < |ms| ==> ms[i] > 0.0
    ensures forall i :: 0 <= i < |ms| ==> prices[i] > 0.0
  {
    forall i | 0 <= i < |ms|
      ensures prices[i] > 0.0
    {
      ProductOfPositives(ms[..i + 1]);
    }
  }

  /** `generate_price_series`: `days == |z|` prices, each the initial price
      times the cumulative product of the multipliers up to and including its
      own day (so the first price already carries the first multiplier). */
  method GeneratePriceSeries(initialPrice: real, drift: real, volatility: real, z: seq<real>) returns (prices: seq<real>)
    ensures IsPricePath(prices, initialPrice, Multipliers(drift, volatility, z))
    ensures |prices| == |z|
    // Each day moves the previous price by that day's multiplier `1 + drift + volatility * z[i]`.
    ensures |z| > 0 ==> prices[0] == initialPrice * Multipliers(drift, volatility, z)[0]
    ensures forall i :: 0 < i < |z| ==> prices[i] == prices[i - 1] * Multipliers(drift, volatility, z)[i]
    // A process with no drift and no volatility is constant.
    ensures drift == 0.0 && volatility == 0.0 ==> forall i :: 0 <= i < |z| ==> prices[i] == initialPrice
    // Positive multipliers keep a positive initial price positive.
    ensures initialPrice > 0.0 && (forall i :: 0 <= i < |z| ==> Multipliers(drift, volatility, z)[i] > 0.0) ==>
              forall i :: 0 <= i < |z| ==> prices[i] > 0.0
  {
    var ms := Multipliers(drift, volatility, z);
    prices := ScaledCumulativeProduct(initialPrice, ms);
    PricePathSteps(prices, initialPrice, ms);
    if drift == 0.0 && volatility == 0.0 {
      FlatPricePath(prices, initialPrice, ms);
    }
    if initialPrice > 0.0 && (forall i :: 0 <= i < |ms| ==> ms[i] > 0.0) {
      PositivePricePath(prices, initialPrice, ms);
    }
  }

  /** `initialPrice * ms.cumprod()`. */
  method ScaledCumulativeProduct(initialPrice: real, ms: seq<real>) returns (prices: seq<real>)
    ensures IsPricePath(prices, initialPrice, ms)
  {
    prices := [];
    var running := 1.0;
    var i := 0;
    while i < |ms|
      invariant 0 <= i <= |ms|
      invariant |prices| == i
      invariant running == Product(ms[..i])
      invariant forall k :: 0 <= k < i ==> prices[k] == initialPrice * Product(ms[..k + 1])
    {
      assert ms[..i + 1][..i] == ms[..i];
      assert Product(ms[..i + 1]) == running * ms[i];
      running := running * ms[i];
      prices := prices + [initialPrice * running];
      i := i + 1;
    }
  }

  // ---------------------------------------------------------------------------
  // simulate_interest_rates
  // ---------------------------------------------------------------------------

  const RateFloor: real := 0.001

  /** One step of the mean-reverting rate process, floored at 0.001. */
  function ReversionStep(prev: real, speed: real, mean: real, volatility: real, z: real): (r: real)
    ensures r >= RateFloor
    // The previous rate moved by `speed` of its gap to the mean plus the noise, then floored.
    ensures FlooredAt(prev + (speed * (mean - prev) + volatility * z), RateFloor, r)
  {
    LowerClamp(RateFloor, prev + (speed * (mean - prev) + volatility * z))
  }

  /** `rates` starts at `initial` and each later value is one reversion step from the one before. */
  predicate IsRatePath(rates: seq<real>, initial: real, speed: real, mean: real, volatility: real, z: seq<real>)
  {
    && |rates| == |z| + 1
    && rates[0] == initial
    && forall i :: 0 <= i < |z| ==> rates[i + 1] == ReversionStep(rates[i], speed, mean, volatility, z[i])
  }

  /** The number of rates for `days`: `range(1, days)` adds `days - 1` to the initial one. */
  function RatePathLength(days: int): (n: nat)
    ensures n >= 1
    ensures days >= 1 ==> n == days
    ensures days < 1 ==> n == 1
  {
    if days > 1 then days else 1
  }

  /** `simulate_interest_rates`, one standard normal per step after the first day. */
  method SimulateInterestRates(initial: real, days: int, volatility: real, speed: real, mean: real, z: seq<real>)
    returns (rates: seq<real>)
    requires |z| == RatePathLength(days) - 1
    ensures |rates| == RatePathLength(days)
    ensures IsRatePath(rates, initial, speed, mean, volatility, z)
    ensures rates[0] == initial
    ensures forall i :: 1 <= i < |rates| ==> rates[i] >= RateFloor
  {
    rates := [initial];
    var i := 0;
    while i < |z|
      invariant 0 <= i <= |z|
      invariant |rates| == i + 1
      invariant rates[0] == initial
      invariant forall k :: 0 <= k < i ==> rates[k + 1] == ReversionStep(rates[k], speed, mean, volatility, z[k])
      invariant forall k :: 1 <= k < |rates| ==> rates[k] >= RateFloor
    {
      rates := rates + [ReversionStep(rates[i], speed, mean, volatility, z[i])];
      i := i + 1;
    }
  }

  /** A rate path is determined by its inputs. */
  lemma {:induction false} RatePathUnique(a: seq<real>, b: seq<real>, initial: real, speed: real, mean: real, volatility: real, z: seq<real>)
    requires IsRatePath(a, initial, speed, mean, volatility, z)
    requires IsRatePath(b, initial, speed, mean, volatility, z)
    ensures a == b
  {
    var k := 0;
    while k < |a|
      invariant 0 <= k <= |a|
      invariant forall j :: 0 <= j < k ==> a[j] == b[j]
    {
      if k > 0 {
        assert a[k] == ReversionStep(a[k - 1], speed, mean, volatility, z[k - 1]);
      }
      k := k + 1;
    }
  }

  /** Without noise, one step never moves the rate away from a long-term mean above the floor. */
  lemma ReversionStepApproachesMean(prev: real, speed: real, mean: real)
    requires 0.0 <= speed <= 1.0 && mean >= RateFloor
    ensures Abs(ReversionStep(prev, speed, mean, 0.0, 0.0) - mean) <= Abs(prev - mean)
  {
    var d := mean - prev;
    var x := prev + (speed * d + 0.0 * 0.0);
    var gap := Abs(d);
    // The unfloored step closes the fraction `speed` of the gap.
    assert x - mean == -((1.0 - speed) * d);
    MulNonNegative(1.0 - speed, gap);
    MulNonNegative(speed, gap);
    assert Abs((1.0 - speed) * d) == (1.0 - speed) * gap;
    assert (1.0 - speed) * gap <= gap;
    assert Abs(x - mean) <= gap;
    if x < RateFloor {
      assert ReversionStep(prev, speed, mean, 0.0, 0.0) == RateFloor;
    }
  }

  /** Without noise, with speed in [0, 1] and a mean above the floor, the
      distance of the rate to its long-term mean never grows. */
  lemma MeanReversionWithoutNoise(rates: seq<real>, initial: real, speed: real, mean: real, z: seq<real>)
    requires IsRatePath(rates, initial, speed, mean, 0.0, z)
    requires 0.0 <= speed <= 1.0 && mean >= RateFloor
    ensures forall i :: 0 <= i < |z| ==> Abs(rates[i + 1] - mean) <= Abs(rates[i] - mean)
  {
    forall i | 0 <= i < |z|
      ensures Abs(rates[i + 1] - mean) <= Abs(rates[i] - mean)
    {
      ReversionStepApproachesMean(rates[i], speed, mean);
      assert ReversionStep(rates[i], speed, mean, 0.0, z[i]) == ReversionStep(rates[i], speed, mean, 0.0, 0.0);
    }
  }

  // ---------------------------------------------------------------------------
  // simulate_market_shock
  // ---------------------------------------------------------------------------

  /** The distance between two positions of a daily index. */
  function Dist(a: int, b: int): nat
  {
    if a >= b then a - b else b - a
  }

  /** Where the shock date `recoveryDays` days before the last of `n` daily
      labels would sit; it may lie outside the index. */
  function ShockTarget(n: nat, recoveryDays: int): int
  {
    n - 1 - recoveryDays
  }

  /** The position nearest to the shock date on a daily index
      (`get_indexer(..., method='nearest')`). */
  function ShockIndex(n: nat, recoveryDays: int): (idx: nat)
    requires n > 0
    ensures idx < n
    // No other position is as near to the target date.
    ensures forall j :: 0 <= j < n && j != idx ==>
              Dist(idx, ShockTarget(n, recoveryDays)) < Dist(j, ShockTarget(n, recoveryDays))
    ensures 0 <= recoveryDays < n ==> idx == n - 1 - recoveryDays
    ensures recoveryDays < 0 ==> idx == n - 1
    ensures recoveryDays >= n ==> idx == 0
  {
    if recoveryDays < 0 then n - 1
    else if recoveryDays >= n then 0
    else n - 1 - recoveryDays
  }

  /** `min(1, t / recoveryDays * strength)`. */
  function RecoveryFactor(t: nat, recoveryDays: int, strength: real): real
    requires recoveryDays > 0
  {
    Min(1.0, (t as real) / (recoveryDays as real) * strength)
  }

  /** The shock still applied `t` days after the shock day. */
  function Residual(t: nat, magnitude: real, recoveryDays: int, strength: real): real
    requires recoveryDays > 0
  {
    magnitude * (1.0 - RecoveryFactor(t, recoveryDays, strength))
  }

  /** `simulate_market_shock`: a fresh series; earlier days are copied, the
      shock day is scaled by `1 + magnitude`, and every later day carries the
      residual shock. A later day exists only when `recoveryDays > 0`, so the
      division by `recoveryDays` is never by zero. */
  function SimulateMarketShock(prices: seq<real>, magnitude: real, recoveryDays: int, strength: real): (r: seq<real>)
    requires |prices| > 0
    ensures |r| == |prices|
    ensures forall i :: 0 <= i < ShockIndex(|prices|, recoveryDays) ==> r[i] == prices[i]
    ensures r[ShockIndex(|prices|, recoveryDays)] == prices[ShockIndex(|prices|, recoveryDays)] * (1.0 + magnitude)
    ensures forall i :: ShockIndex(|prices|, recoveryDays) < i < |prices| ==>
              && recoveryDays > 0
              && r[i] == prices[i] * (1.0 + Residual(i - ShockIndex(|prices|, recoveryDays), magnitude, recoveryDays, strength))
  {
    var n := |prices|;
    var idx := ShockIndex(n, recoveryDays);
    seq(n, i requires 0 <= i < n =>
      if i < idx then prices[i]
      else if i == idx then prices[i] * (1.0 + magnitude)
      else prices[i] * (1.0 + Residual(i - idx, magnitude, recoveryDays, strength)))
  }

  /** Once `t * strength` reaches `recoveryDays`, the shock has fully worn off. */
  lemma FullRecovery(t: nat, magnitude: real, recoveryDays: int, strength: real)
    requires recoveryDays > 0
    requires (t as real) * strength >= recoveryDays as real
    ensures Residual(t, magnitude, recoveryDays, strength) == 0.0
  {
    var d := recoveryDays as real;
    assert (t as real) / d * strength == ((t as real) * strength) / d;
    assert ((t as real) * strength) / d >= d / d;
  }

  /** After the shock index, an entry whose recovery is complete equals the original price. */
  lemma ShockRecovers(prices: seq<real>, magnitude: real, recoveryDays: int, strength: real, i: nat)
    requires |prices| > 0
    requires ShockIndex(|prices|, recoveryDays) < i < |prices|
    requires ((i - ShockIndex(|prices|, recoveryDays)) as real) * strength >= recoveryDays as real
    ensures SimulateMarketShock(prices, magnitude, recoveryDays, strength)[i] == prices[i]
  {
    FullRecovery(i - ShockIndex(|prices|, recoveryDays), magnitude, recoveryDays, strength);
  }

  /** With a non-negative strength, the recovery factor lies in [0, 1] and never decreases. */
  lemma RecoveryFactorGrows(t: nat, u: nat, recoveryDays: int, strength: real)
    requires recoveryDays > 0 && strength >= 0.0 && t <= u
    ensures 0.0 <= RecoveryFactor(t, recoveryDays, strength) <= RecoveryFactor(u, recoveryDays, strength) <= 1.0
  {
    var d := recoveryDays as real;
    var a := (t as real) / d;
    var b := (u as real) / d;
    assert b - a == ((u - t) as real) / d;
    MulNonNegative(b - a, strength);
    MulNonNegative(a, strength);
    assert b * strength - a * strength == (b - a) * strength;
  }

  /** Scaling by a non-negative factor scales the absolute value. */
  lemma AbsScale(m: real, x: real)
    requires x >= 0.0
    ensures Abs(m * x) == Abs(m) * x
  {
    if m >= 0.0 {
      MulNonNegative(m, x);
    } else {
      MulNonNegative(-m, x);
      assert m * x == -((-m) * x);
    }
  }

  /** With a non-negative strength, the residual shock never grows in size as days pass. */
  lemma ResidualFades(t: nat, u: nat, magnitude: real, recoveryDays: int, strength: real)
    requires recoveryDays > 0 && strength >= 0.0 && t <= u
    ensures Abs(Residual(u, magnitude, recoveryDays, strength)) <= Abs(Residual(t, magnitude, recoveryDays, strength))
  {
    RecoveryFactorGrows(t, u, recoveryDays, strength);
    var rt := 1.0 - RecoveryFactor(t, recoveryDays, strength);
    var ru := 1.0 - RecoveryFactor(u, recoveryDays, strength);
    AbsScale(magnitude, ru);
    AbsScale(magnitude, rt);
    MulNonNegative(Abs(magnitude), rt - ru);
    assert Abs(magnitude) * rt - Abs(magnitude) * ru == Abs(magnitude) * (rt - ru);
  }

  // ---------------------------------------------------------------------------
  // simulate_trading_volume
  // ---------------------------------------------------------------------------

  /** Rounding to the nearest integer with ties to the even one (numpy's `round`). */
  function RoundHalfEven(x: real): (r: int)
    ensures (r as real) - 0.5 <= x <= (r as real) + 0.5
    ensures Abs((r as real) - x) == 0.5 ==> r % 2 == 0
  {
    var f := x.Floor;
    var d := x - f as real;
    if d < 0.5 then f
    else if d > 0.5 then f + 1
    else if f % 2 == 0 then f
    else f + 1
  }

  /** Percentage changes are defined: a zero price is only followed by a zero
      price, whose `0 / 0` change is a missing value that is filled with 0. */
  predicate ChangesDefined(prices: seq<real>)
  {
    forall i :: 0 < i < |prices| ==> prices[i - 1] != 0.0 || prices[i] == 0.0
  }

  /** `abs(pct_change)` with the missing first value filled by 0. */
  function AbsChange(prices: seq<real>, i: nat): (r: real)
    requires i < |prices| && ChangesDefined(prices)
    ensures r >= 0.0
    ensures i == 0 ==> r == 0.0
    // A step from 0 to 0 has the missing change `0 / 0`, filled with 0.
    ensures i > 0 && prices[i - 1] == 0.0 ==> r == 0.0
    ensures i > 0 && prices[i - 1] != 0.0 ==> r * Abs(prices[i - 1]) == Abs(prices[i] - prices[i - 1])
  {
    if i == 0 || prices[i - 1] == 0.0 then 0.0
    else
      var c := prices[i] / prices[i - 1] - 1.0;
      assert c * prices[i - 1] == prices[i] - prices[i - 1];
      Abs(c)
  }

  /** The unrounded volume of day `i`: `base * (1 + |change| * sensitivity) * noise`. */
  function RawVolume(prices: seq<real>, i: nat, base: int, sensitivity: real, randomFactor: real, z: real): real
    requires i < |prices| && ChangesDefined(prices)
  {
    (base as real) * (1.0 + AbsChange(prices, i) * sensitivity) * (1.0 + randomFactor * z)
  }

  /** `simulate_trading_volume`: one rounded volume per price. */
  function SimulateTradingVolume(prices: seq<real>, base: int, sensitivity: real, randomFactor: real, z: seq<real>): (r: seq<int>)
    requires |z| == |prices| && ChangesDefined(prices)
    ensures |r| == |prices|
    ensures forall i :: 0 <= i < |prices| ==>
              var raw := RawVolume(prices, i, base, sensitivity, randomFactor, z[i]);
              (r[i] as real) - 0.5 <= raw <= (r[i] as real) + 0.5
    // The first day has no price change.
    ensures |prices| > 0 ==> r[0] == RoundHalfEven((base as real) * (1.0 + randomFactor * z[0]))
  {
    seq(|prices|, i requires 0 <= i < |prices| => RoundHalfEven(RawVolume(prices, i, base, sensitivity, randomFactor, z[i])))
  }

  /** The volume of day `i` is its raw volume rounded half to even. */
  lemma VolumeAt(prices: seq<real>, base: int, sensitivity: real, randomFactor: real, z: seq<real>, i: nat)
    requires |z| == |prices| && ChangesDefined(prices) && i < |prices|
    ensures SimulateTradingVolume(prices, base, sensitivity, randomFactor, z)[i] ==
            RoundHalfEven(RawVolume(prices, i, base, sensitivity, randomFactor, z[i]))
  {
  }

  /** With no price change, the raw volume is the base volume times the noise. */
  lemma UnchangedPriceRawVolume(prices: seq<real>, i: nat, base: int, sensitivity: real, randomFactor: real, z: real)
    requires i < |prices| && ChangesDefined(prices)
    requires i > 0 ==> prices[i] == prices[i - 1]
    ensures RawVolume(prices, i, base, sensitivity, randomFactor, z) == (base as real) * (1.0 + randomFactor * z)
  {
    if i > 0 && prices[i - 1] != 0.0 {
      assert prices[i] / prices[i - 1] == 1.0;
    }
    assert AbsChange(prices, i) == 0.0;
  }

  /** On a flat price series, volume is the base volume times the noise, rounded. */
  lemma FlatPricesGiveNoiseVolume(prices: seq<real>, base: int, sensitivity: real, randomFactor: real, z: seq<real>)
    requires |z| == |prices| && ChangesDefined(prices)
    requires forall i :: 0 < i < |prices| ==> prices[i] == prices[i - 1]
    ensures forall i :: 0 <= i < |prices| ==>
              SimulateTradingVolume(prices, base, sensitivity, randomFactor, z)[i] ==
              RoundHalfEven((base as real) * (1.0 + randomFactor * z[i]))
  {
    forall i | 0 <= i < |prices|
      ensures SimulateTradingVolume(prices, base, sensitivity, randomFactor, z)[i] ==
              RoundHalfEven((base as real) * (1.0 + randomFactor * z[i]))
    {
      VolumeAt(prices, base, sensitivity, randomFactor, z, i);
      UnchangedPriceRawVolume(prices, i, base, sensitivity, randomFactor, z[i]);
    }
  }
}

=== FILE: order_book.dfy ===
/**
 The synthetic order book (`generate_order_book`) and the liquidity measure
 over it (`calculate_market_liquidity`). Each level draws a volume noise and
 then a price jitter, both uniform in [0.8, 1.2]; they are explicit inputs.
 Level prices are kept exact, whereas the source stores each level price
 rounded to two decimals and computes liquidity from those rounded prices;
 level volumes are truncated toward zero as Python's `int` does.
 */
module OrderBook {
  import opened MarketState

  datatype Level = Level(price: real, volume: int)

  /** Bid and ask levels, each ordered best to worst. */
  datatype Book = Book(bids: seq<Level>, asks: seq<Level>)

  /** The two uniform draws of one level: volume noise, then price jitter. */
  datatype LevelDraw = LevelDraw(volumeNoise: real, stepJitter: real)

  const MinJitter: real := 0.8
  const MaxJitter: real := 1.2
  const TaperPerLevel: real := 0.05

  predicate ValidDraws(ds: seq<LevelDraw>)
  {
    forall i :: 0 <= i < |ds| ==>
      MinJitter <= ds[i].volumeNoise <= MaxJitter && MinJitter <= ds[i].stepJitter <= MaxJitter
  }

  /** Python's `int(x)` on a float: truncation toward zero. */
  function Truncate(x: real): int
  {
    if x >= 0.0 then x.Floor else -((-x).Floor)
  }

  /** Truncation drops the fractional part, moving toward zero. Kept as a
      lemma rather than a postcondition so that the nonlinear volume terms
      it would be instantiated on stay out of unrelated proofs. */
  lemma TruncateTowardZero(x: real)
    ensures x >= 0.0 ==> (Truncate(x) as real) <= x < (Truncate(x) as real) + 1.0
    ensures x < 0.0 ==> (Truncate(x) as real) - 1.0 < x <= (Truncate(x) as real)
    ensures Truncate(x) >= 0 <==> x > -1.0
  {
  }

  /** The volume of level `level`: the base volume tapered by 5% per level, with noise. */
  function LevelVolume(base: int, level: nat, noise: real): int
  {
    Truncate((base as real) * (1.0 - (level as real) * TaperPerLevel) * noise)
  }

  /** Levels within the first twenty never get a negative volume, and never
      more than the noisy base volume. */
  lemma LevelVolumeBounds(base: int, level: nat, noise: real)
    requires base >= 0 && level <= 20 && noise >= 0.0
    ensures 0 <= LevelVolume(base, level, noise)
    ensures (LevelVolume(base, level, noise) as real) <= (base as real) * noise
  {
    var taper := 1.0 - (level as real) * TaperPerLevel;
    assert 0.0 <= taper <= 1.0;
    var x := (base as real) * taper * noise;
    var full := (base as real) * noise;
    MulNonNegative(base as real, noise);
    assert x == full * taper;
    MulNonNegative(full, taper);
    MulNonNegative(full, 1.0 - taper);
    TruncateTowardZero(x);
  }

  /** The side of the book a ladder of levels belongs to. */
  datatype Side = BidSide | AskSide

  /** The next level's price: bids step down, asks step up, by `step * jitter`. */
  function NextPrice(side: Side, price: real, step: real, jitter: real): real
  {
    match side
    case BidSide => price - step * jitter
    case AskSide => price + step * jitter
  }

  /** One side of the book: a level at `price`, then each next level one
      jittered step further from the one before. */
  function Ladder(side: Side, price: real, step: real, base: int, level: nat, ds: seq<LevelDraw>): (r: seq<Level>)
    decreases |ds|
    ensures |r| == |ds|
    ensures |r| > 0 ==> r[0].price == price
    ensures forall i :: 0 <= i < |r| ==> r[i].volume == LevelVolume(base, level + i, ds[i].volumeNoise)
    ensures forall i :: 0 <= i < |r| - 1 ==> r[i + 1].price == NextPrice(side, r[i].price, step, ds[i].stepJitter)
  {
    if |ds| == 0 then []
    else
      [Level(price, LevelVolume(base, level, ds[0].volumeNoise))]
      + Ladder(side, NextPrice(side, price, step, ds[0].stepJitter), step, base, level + 1, ds[1..])
  }

  /** `q` lies strictly deeper into the book than `p`: lower for bids, higher for asks. */
  predicate Deeper(side: Side, p: real, q: real)
  {
    match side
    case BidSide => q < p
    case AskSide => q > p
  }

  /** Level prices strictly fall (bids) or strictly rise (asks) with depth. */
  predicate Monotone(side: Side, levels: seq<Level>)
  {
    forall i, j :: 0 <= i < j < |levels| ==> Deeper(side, levels[i].price, levels[j].price)
  }

  /** Adjacent strict steps in one direction give a strictly monotone side. */
  lemma AdjacentStepsMonotone(side: Side, levels: seq<Level>)
    requires forall i :: 0 <= i < |levels| - 1 ==> Deeper(side, levels[i].price, levels[i + 1].price)
    ensures Monotone(side, levels)
  {
    forall i, j | 0 <= i < j < |levels|
      ensures Deeper(side, levels[i].price, levels[j].price)
    {
      var k := i + 1;
      while k < j
        invariant i < k <= j
        invariant Deeper(side, levels[i].price, levels[k].price)
      {
        assert Deeper(side, levels[k].price, levels[k + 1].price);
        k := k + 1;
      }
    }
  }

  /** A ladder with a positive step and jitters in [0.8, 1.2] moves strictly away from the price. */
  lemma LadderMonotone(side: Side, price: real, step: real, base: int, level: nat, ds: seq<LevelDraw>)
    requires step > 0.0 && ValidDraws(ds)
    ensures Monotone(side, Ladder(side, price, step, base, level, ds))
  {
    var r := Ladder(side, price, step, base, level, ds);
    forall i | 0 <= i < |r| - 1
      ensures Deeper(side, r[i].price, r[i + 1].price)
    {
      assert step * ds[i].stepJitter > 0.0;
    }
    AdjacentStepsMonotone(side, r);
  }

  /** `range(depth)` has `depth` levels, none when `depth` is not positive. */
  function DepthCount(depth: int): nat
  {
    if depth > 0 then depth else 0
  }

  /** The quoted spread: `price * spread_percent / 100`. */
  function FullSpread(price: real, spreadPercent: real): real
  {
    price * spreadPercent / 100.0
  }

  /** Half the quoted spread: `price * spread_percent / 200`. */
  function HalfSpread(price: real, spreadPercent: real): real
  {
    price * spreadPercent / 200.0
  }

  /** `generate_order_book`. */
  function GenerateOrderBook(
    price: real, depth: int, spreadPercent: real, base: int, step: real,
    bidDraws: seq<LevelDraw>, askDraws: seq<LevelDraw>): (b: Book)
    requires |bidDraws| == DepthCount(depth) && |askDraws| == DepthCount(depth)
    ensures |b.bids| == DepthCount(depth) && |b.asks| == DepthCount(depth)
    // Best quotes sit half a spread either side of the price.
    ensures depth > 0 ==> b.bids[0].price == price - HalfSpread(price, spreadPercent)
    ensures depth > 0 ==> b.asks[0].price == price + HalfSpread(price, spreadPercent)
    // Each deeper level is one jittered step further out.
    ensures forall i :: 0 <= i < |b.bids| - 1 ==> b.bids[i + 1].price == NextPrice(BidSide, b.bids[i].price, step, bidDraws[i].stepJitter)
    ensures forall i :: 0 <= i < |b.asks| - 1 ==> b.asks[i + 1].price == NextPrice(AskSide, b.asks[i].price, step, askDraws[i].stepJitter)
    ensures forall i :: 0 <= i < |b.bids| ==> b.bids[i].volume == LevelVolume(base, i, bidDraws[i].volumeNoise)
    ensures forall i :: 0 <= i < |b.asks| ==> b.asks[i].volume == LevelVolume(base, i, askDraws[i].volumeNoise)
  {
    Book(
      Ladder(BidSide, price - HalfSpread(price, spreadPercent), step, base, 0, bidDraws),
      Ladder(AskSide, price + HalfSpread(price, spreadPercent), step, base, 0, askDraws))
  }

  /** With a positive step, bid prices strictly fall and ask prices strictly rise with depth. */
  lemma OrderBookMonotone(
    price: real, depth: int, spreadPercent: real, base: int, step: real,
    bidDraws: seq<LevelDraw>, askDraws: seq<LevelDraw>)
    requires |bidDraws| == DepthCount(depth) && |askDraws| == DepthCount(depth)
    requires step > 0.0 && ValidDraws(bidDraws) && ValidDraws(askDraws)
    ensures Monotone(BidSide, GenerateOrderBook(price, depth, spreadPercent, base, step, bidDraws, askDraws).bids)
    ensures Monotone(AskSide, GenerateOrderBook(price, depth, spreadPercent, base, step, bidDraws, askDraws).asks)
  {
    var h := HalfSpread(price, spreadPercent);
    var b := GenerateOrderBook(price, depth, spreadPercent, base, step, bidDraws, askDraws);
    assert b.bids == Ladder(BidSide, price - h, step, base, 0, bidDraws);
    assert b.asks == Ladder(AskSide, price + h, step, base, 0, askDraws);
    LadderMonotone(BidSide, price - h, step, base, 0, bidDraws);
    LadderMonotone(AskSide, price + h, step, base, 0, askDraws);
  }

  // ---------------------------------------------------------------------------
  // calculate_market_liquidity
  // ---------------------------------------------------------------------------

  /** A liquidity figure, or the infinity sentinel. */
  datatype Liquidity = Finite(value: real) | Infinite

  function TotalVolume(levels: seq<Level>): int
  {
    if |levels| == 0 then 0 else TotalVolume(levels[..|levels| - 1]) + levels[|levels| - 1].volume
  }

  /** The best bid, 0 for an empty bid side. */
  function BestBid(b: Book): real
  {
    if |b.bids| > 0 then b.bids[0].price else 0.0
  }

  /** `calculate_market_liquidity`: total volume over the spread. An empty
      ask side has an infinite best ask, so the spread is infinite and the
      ratio is 0; a spread that is zero or negative (a crossed book) gives the
      infinity sentinel. */
  function MarketLiquidity(b: Book): (r: Liquidity)
    ensures r.Infinite? <==> |b.asks| > 0 && b.asks[0].price <= BestBid(b)
    ensures |b.asks| == 0 ==> r == Finite(0.0)
    ensures |b.asks| > 0 && r.Finite? ==>
              r.value * (b.asks[0].price - BestBid(b)) == (TotalVolume(b.bids) + TotalVolume(b.asks)) as real
  {
    if |b.asks| == 0 then Finite(0.0)
    else
      var spread := b.asks[0].price - BestBid(b);
      if spread > 0.0 then Finite((TotalVolume(b.bids) + TotalVolume(b.asks)) as real / spread)
      else Infinite
  }

  /** A generated book with a positive price and depth has finite liquidity
      exactly when its spread percentage is positive, and then the liquidity
      is the total volume over `price * spread_percent / 100`. */
  lemma GeneratedBookLiquidity(
    price: real, depth: int, spreadPercent: real, base: int, step: real,
    bidDraws: seq<LevelDraw>, askDraws: seq<LevelDraw>)
    requires |bidDraws| == DepthCount(depth) && |askDraws| == DepthCount(depth)
    requires price > 0.0 && depth > 0
    ensures var b := GenerateOrderBook(price, depth, spreadPercent, base, step, bidDraws, askDraws);
            && (MarketLiquidity(b).Infinite? <==> spreadPercent <= 0.0)
            && (spreadPercent > 0.0 ==>
                  MarketLiquidity(b) == Finite((TotalVolume(b.bids) + TotalVolume(b.asks)) as real / FullSpread(price, spreadPercent)))
  {
    var b := GenerateOrderBook(price, depth, spreadPercent, base, step, bidDraws, askDraws);
    QuotedBookLiquidity(b, price, spreadPercent);
  }

  /** Liquidity of any book whose best quotes sit half a spread either side of `price`. */
  lemma QuotedBookLiquidity(b: Book, price: real, spreadPercent: real)
    requires price > 0.0 && |b.bids| > 0 && |b.asks| > 0
    requires b.bids[0].price == price - HalfSpread(price, spreadPercent)
    requires b.asks[0].price == price + HalfSpread(price, spreadPercent)
    ensures MarketLiquidity(b).Infinite? <==> spreadPercent <= 0.0
    ensures spreadPercent > 0.0 ==>
              MarketLiquidity(b) == Finite((TotalVolume(b.bids) + TotalVolume(b.asks)) as real / FullSpread(price, spreadPercent))
  {
    SpreadSign(price, spreadPercent);
    LiquidityOverSpread(b, FullSpread(price, spreadPercent));
  }

  /** Liquidity in terms of a known spread between the best quotes. */
  lemma LiquidityOverSpread(b: Book, spread: real)
    requires |b.asks| > 0 && b.asks[0].price - BestBid(b) == spread
    ensures MarketLiquidity(b).Infinite? <==> spread <= 0.0
    ensures spread > 0.0 ==> MarketLiquidity(b) == Finite((TotalVolume(b.bids) + TotalVolume(b.asks)) as real / spread)
  {
  }

  /** The full spread is `price * spread_percent / 100`, positive exactly when the percentage is. */
  lemma SpreadSign(price: real, spreadPercent: real)
    requires price > 0.0
    ensures 2.0 * HalfSpread(price, spreadPercent) == FullSpread(price, spreadPercent)
    ensures FullSpread(price, spreadPercent) > 0.0 <==> spreadPercent > 0.0
  {
    if spreadPercent > 0.0 {
      assert price * spreadPercent > 0.0;
    } else {
      assert price * spreadPercent <= 0.0;
    }
  }
}

=== FILE: regulatory.dfy ===
/**
 The central bank's interest-rate policy rule inside
 `_execute_regulatory_activities`. Every 30 days, and only when an agent named
 as the central bank exists, the rate is raised when inflation is high;
 otherwise it is cut, with a floor, when growth is low. The inflation check
 takes priority, so at most one branch fires.
 */
module Regulatory {
  import opened MarketState

  const PolicyCadence: nat := 30
  const InflationCeiling: real := 0.04
  const GrowthFloor: real := 0.01
  const MaxRateStep: real := 0.0025
  const InflationTarget: real := 0.02
  const GrowthTarget: real := 0.02
  const PolicySensitivity: real := 0.1

  /** The amount the rate rises by when the inflation branch fires. */
  function RateRise(inflation: real): (r: real)
    requires inflation > InflationCeiling
    ensures 0.0 < r <= MaxRateStep
    ensures r <= (inflation - InflationTarget) * PolicySensitivity
    // The smaller of the cap and the proportional step.
    ensures r == MaxRateStep || r == (inflation - InflationTarget) * PolicySensitivity
  {
    Min(MaxRateStep, (inflation - InflationTarget) * PolicySensitivity)
  }

  /** The amount the rate falls by when the growth branch fires. */
  function RateCut(growth: real): (r: real)
    requires growth < GrowthFloor
    ensures 0.0 < r <= MaxRateStep
    ensures r <= (GrowthTarget - growth) * PolicySensitivity
    // The smaller of the cap and the proportional step.
    ensures r == MaxRateStep || r == (GrowthTarget - growth) * PolicySensitivity
  {
    Min(MaxRateStep, (GrowthTarget - growth) * PolicySensitivity)
  }

  predicate PolicyDay(day: nat, centralBankPresent: bool)
  {
    day % PolicyCadence == 0 && centralBankPresent
  }

  /** The interest-rate policy rule applied on `day`. */
  function AdjustInterestRate(day: nat, centralBankPresent: bool, s: Indicators): (r: Indicators)
    // Nothing but the interest rate ever changes.
    ensures r == s.(interestRate := r.interestRate)
    // Off the 30-day cadence, or without a central bank, nothing happens.
    ensures !PolicyDay(day, centralBankPresent) ==> r == s
    // Inflation branch: a strictly positive rise of at most 0.0025.
    ensures PolicyDay(day, centralBankPresent) && s.inflationRate > InflationCeiling ==>
              && r.interestRate == s.interestRate + RateRise(s.inflationRate)
              && s.interestRate < r.interestRate <= s.interestRate + MaxRateStep
    // Growth branch, only when the inflation branch did not fire: a floored cut.
    ensures PolicyDay(day, centralBankPresent) && s.inflationRate <= InflationCeiling && s.economicGrowth < GrowthFloor ==>
              && FlooredAt(s.interestRate - RateCut(s.economicGrowth), MinInterestRate, r.interestRate)
              && (s.interestRate >= MinInterestRate ==> r.interestRate <= s.interestRate)
    // Neither branch: unchanged.
    ensures s.inflationRate <= InflationCeiling && s.economicGrowth >= GrowthFloor ==> r == s
    // The rate floor is preserved.
    ensures s.interestRate >= MinInterestRate ==> r.interestRate >= MinInterestRate
  {
    if PolicyDay(day, centralBankPresent) then
      if s.inflationRate > InflationCeiling then
        s.(interestRate := s.interestRate + RateRise(s.inflationRate))
      else if s.economicGrowth < GrowthFloor then
        s.(interestRate := LowerClamp(MinInterestRate, s.interestRate - RateCut(s.economicGrowth)))
      else
        s
    else
      s
  }

  /** The policy rule keeps every declared bound of the market state. */
  lemma AdjustInterestRateKeepsBounds(day: nat, centralBankPresent: bool, s: Indicators)
    requires InBounds(s)
    ensures InBounds(AdjustInterestRate(day, centralBankPresent, s))
  {
  }

  /** High inflation takes priority: even with low growth the rate goes up. */
  lemma InflationTakesPriority(day: nat, s: Indicators)
    requires day % PolicyCadence == 0
    requires s.inflationRate > InflationCeiling && s.economicGrowth < GrowthFloor
    ensures AdjustInterestRate(day, true, s).interestRate > s.interestRate
  {
  }

  /** Inflation 0.05 with growth 0.02 on a policy day raises the rate by the full 0.0025. */
  lemma HighInflationScenario(s: Indicators)
    requires s.inflationRate == 0.05 && s.economicGrowth == 0.02
    ensures AdjustInterestRate(0, true, s).interestRate == s.interestRate + 0.0025
  {
  }
}

=== FILE: simulation.dfy ===
/**
 The simulation loop (`run_simulation`) and the world it evolves. Each day
 runs, in this order: the market-state random walk, the event step, the
 central bank's policy rule, the agent interactions and the asset-price
 adjustment. Every random draw of a day is collected in one `DayInputs`
 value; the settlement and record hooks are empty and are not modelled.
 */
module Simulation {
  import opened Wrappers
  import opened MarketState
  import opened Events
  import opened Regulatory
  import opened Agents
  import opened Connections
  import opened Interactions
  import opened AssetPrices

  /** Everything one simulation carries from day to day. */
  datatype World = World(market: Indicators, accounts: Accounts, events: seq<Event>, prices: PriceTable)

  /** The random draws consumed on one day. */
  datatype DayInputs = DayInputs(noise: Noise, event: EventDraw, attempts: seq<Attempt>)

  /** Draws a day can actually produce for a registry of `n` agents. */
  predicate ValidInputs(n: nat, inp: DayInputs)
  {
    && ValidDraw(inp.event)
    && |inp.attempts| == NumInteractions(n)
    && ValidAttempts(n, inp.attempts)
  }

  predicate AllValidInputs(n: nat, inputs: seq<DayInputs>)
  {
    forall i :: 0 <= i < |inputs| ==> ValidInputs(n, inputs[i])
  }

  /** Every price series has at least `n` entries, so days `0 .. n-1` can be indexed. */
  predicate Horizon(table: PriceTable, n: nat)
  {
    forall k :: k in table ==> n <= |table[k]|
  }

  /** The central bank takes part in policy only when the registry has an agent with its name. */
  predicate HasCentralBank(reg: Registry)
  {
    FindByName(reg, CentralBankName).Some?
  }

  /** One day of the simulation. */
  function SimulateDay(w: World, day: nat, probability: real, inp: DayInputs): (r: World)
    requires WellFormed(w.accounts.registry)
    requires CoversDay(w.prices, day)
    requires ValidInputs(|w.accounts.registry|, inp)
    // The market state always ends the day within its declared bounds.
    ensures InBounds(r.market)
    // The day's steps in order: noise, then the event, then the policy rule
    // (which sees the state the first two left), then the interactions.
    ensures r.market ==
              AdjustInterestRate(day, HasCentralBank(w.accounts.registry),
                ProcessEvents(UpdateMarketState(w.market, inp.noise), w.events, day, probability, inp.event).state)
    ensures r.events == ProcessEvents(UpdateMarketState(w.market, inp.noise), w.events, day, probability, inp.event).log
    ensures r.accounts == ExecuteAgentInteractions(w.accounts, inp.attempts)
    // At most one event; the event log only grows.
    ensures |w.events| <= |r.events| <= |w.events| + 1
    ensures r.events[..|w.events|] == w.events
    ensures |r.events| == |w.events| + 1 <==> inp.event.trial < probability
    // The connection graph is fixed; the ledger only grows, by payments over it.
    ensures SameGraph(w.accounts.registry, r.accounts.registry)
    ensures WellFormed(r.accounts.registry)
    ensures |w.accounts.ledger| <= |r.accounts.ledger| <= |w.accounts.ledger| + MaxInteractions
    ensures r.accounts.ledger[..|w.accounts.ledger|] == w.accounts.ledger
    ensures forall i :: |w.accounts.ledger| <= i < |r.accounts.ledger| ==>
              PeerPayment(w.accounts.registry, r.accounts.ledger[i])
    // Only today's price moves, and it moves by the factors of the day's final market state.
    ensures r.prices.Keys == w.prices.Keys
    ensures forall k :: k in w.prices ==> |r.prices[k]| == |w.prices[k]|
    ensures forall k, i :: k in w.prices && 0 <= i < |w.prices[k]| && i != day ==> r.prices[k][i] == w.prices[k][i]
    ensures forall k :: k in w.prices ==>
              r.prices[k][day] == Adjusted(w.prices[k][day], r.market)
  {
    var afterNoise := UpdateMarketState(w.market, inp.noise);
    var afterEvents := ProcessEvents(afterNoise, w.events, day, probability, inp.event);
    ProcessEventsKeepsBounds(afterNoise, w.events, day, probability, inp.event);
    var market := AdjustInterestRate(day, HasCentralBank(w.accounts.registry), afterEvents.state);
    AdjustInterestRateKeepsBounds(day, HasCentralBank(w.accounts.registry), afterEvents.state);
    var accounts := ExecuteAgentInteractions(w.accounts, inp.attempts);
    var prices := UpdateAssetPrices(w.prices, day, market);
    World(market, accounts, afterEvents.log, prices)
  }

  /** A run of `inputs` starting at `day` is possible from `w`: the registry
      is well formed, every price series reaches past the last day, and every
      day's draws fit the registry. */
  predicate Runnable(w: World, inputs: seq<DayInputs>, day: nat)
  {
    && WellFormed(w.accounts.registry)
    && Horizon(w.prices, day + |inputs|)
    && AllValidInputs(|w.accounts.registry|, inputs)
  }

  /** After one simulated day the rest of the run is still possible. */
  lemma NextDayRunnable(w: World, probability: real, inputs: seq<DayInputs>, day: nat)
    requires Runnable(w, inputs, day) && |inputs| > 0
    ensures CoversDay(w.prices, day)
    ensures Runnable(SimulateDay(w, day, probability, inputs[0]), inputs[1..], day + 1)
  {
  }

  /** Days `day`, `day + 1`, ... driven by `inputs`, in order. */
  function Run(w: World, probability: real, inputs: seq<DayInputs>, day: nat): (r: World)
    requires Runnable(w, inputs, day)
    decreases |inputs|
    ensures SameGraph(w.accounts.registry, r.accounts.registry)
    ensures WellFormed(r.accounts.registry)
    ensures r.prices.Keys == w.prices.Keys
    ensures forall k :: k in w.prices ==> |r.prices[k]| == |w.prices[k]|
  {
    if |inputs| == 0 then w
    else
      NextDayRunnable(w, probability, inputs, day);
      Run(SimulateDay(w, day, probability, inputs[0]), probability, inputs[1..], day + 1)
  }

  /** `run_simulation`: one day per entry of `inputs`, starting at day 0. */
  function RunSimulation(w: World, probability: real, inputs: seq<DayInputs>): (r: World)
    requires Runnable(w, inputs, 0)
    ensures SameGraph(w.accounts.registry, r.accounts.registry)
    ensures r.prices.Keys == w.prices.Keys
  {
    Run(w, probability, inputs, 0)
  }

  /** A run adds at most one event per day and keeps the earlier events as a prefix. */
  lemma {:induction false} RunEventBounds(w: World, probability: real, inputs: seq<DayInputs>, day: nat)
    requires Runnable(w, inputs, day)
    decreases |inputs|
    ensures var r := Run(w, probability, inputs, day);
            && |w.events| <= |r.events| <= |w.events| + |inputs|
            && r.events[..|w.events|] == w.events
  {
    if |inputs| > 0 {
      NextDayRunnable(w, probability, inputs, day);
      var next := SimulateDay(w, day, probability, inputs[0]);
      RunEventBounds(next, probability, inputs[1..], day + 1);
      var r := Run(next, probability, inputs[1..], day + 1);
      assert r.events[..|w.events|] == r.events[..|next.events|][..|w.events|];
    }
  }

  /** A run adds at most ten ledger entries per day and keeps the earlier ones as a prefix. */
  lemma {:induction false} RunLedgerBounds(w: World, probability: real, inputs: seq<DayInputs>, day: nat)
    requires Runnable(w, inputs, day)
    decreases |inputs|
    ensures var r := Run(w, probability, inputs, day);
            && |w.accounts.ledger| <= |r.accounts.ledger| <= |w.accounts.ledger| + 10 * |inputs|
            && r.accounts.ledger[..|w.accounts.ledger|] == w.accounts.ledger
  {
    if |inputs| > 0 {
      NextDayRunnable(w, probability, inputs, day);
      var next := SimulateDay(w, day, probability, inputs[0]);
      RunLedgerBounds(next, probability, inputs[1..], day + 1);
      var r := Run(next, probability, inputs[1..], day + 1);
      assert r.accounts.ledger[..|w.accounts.ledger|] ==
             r.accounts.ledger[..|next.accounts.ledger|][..|w.accounts.ledger|];
    }
  }

  /** A run only adjusts prices at the indices of the days it simulates. */
  lemma {:induction false} RunTouchesOnlyItsDays(w: World, probability: real, inputs: seq<DayInputs>, day: nat)
    requires Runnable(w, inputs, day)
    decreases |inputs|
    ensures var r := Run(w, probability, inputs, day);
            forall k, i :: k in w.prices && 0 <= i < |w.prices[k]| && !(day <= i < day + |inputs|) ==>
              r.prices[k][i] == w.prices[k][i]
  {
    if |inputs| > 0 {
      NextDayRunnable(w, probability, inputs, day);
      var next := SimulateDay(w, day, probability, inputs[0]);
      RunTouchesOnlyItsDays(next, probability, inputs[1..], day + 1);
    }
  }

  /** Dropping the first element commutes with dropping the last one. */
  lemma TailFront<T>(s: seq<T>)
    requires |s| >= 2
    ensures s[..|s| - 1][0] == s[0]
    ensures s[..|s| - 1][1..] == s[1..][..|s[1..]| - 1]
    ensures s[1..][|s[1..]| - 1] == s[|s| - 1]
  {
  }

  /** One step of `Run`: the first day, then the rest of the run. */
  lemma RunFirstDay(w: World, probability: real, inputs: seq<DayInputs>, day: nat)
    requires Runnable(w, inputs, day) && |inputs| > 0
    ensures Runnable(SimulateDay(w, day, probability, inputs[0]), inputs[1..], day + 1)
    ensures Run(w, probability, inputs, day) ==
            Run(SimulateDay(w, day, probability, inputs[0]), probability, inputs[1..], day + 1)
  {
    NextDayRunnable(w, probability, inputs, day);
  }

  /** Dropping a run's last day commutes with running its first day. */
  lemma RunFrontStep(w: World, probability: real, inputs: seq<DayInputs>, day: nat)
    requires Runnable(w, inputs, day) && |inputs| >= 2
    ensures var rest := inputs[1..];
            Run(w, probability, inputs[..|inputs| - 1], day) ==
            Run(SimulateDay(w, day, probability, inputs[0]), probability, rest[..|rest| - 1], day + 1)
  {
    TailFront(inputs);
    RunFirstDay(w, probability, inputs[..|inputs| - 1], day);
  }

  /** Input `k` drives day `day + k`: a run of `n` days is the run of its
      first `n - 1` days followed by its last day, `day + n - 1`, on the
      last input. */
  lemma {:induction false} RunLastDay(w: World, probability: real, inputs: seq<DayInputs>, day: nat, last: nat)
    requires Runnable(w, inputs, day) && |inputs| > 0
    requires last == day + |inputs| - 1
    decreases |inputs|
    ensures Run(w, probability, inputs, day) ==
            SimulateDay(Run(w, probability, inputs[..|inputs| - 1], day), last, probability, inputs[|inputs| - 1])
  {
    RunFirstDay(w, probability, inputs, day);
    if |inputs| == 1 {
      assert inputs[..|inputs| - 1] == [] && inputs[1..] == [];
    } else {
      RunLastDay(SimulateDay(w, day, probability, inputs[0]), probability, inputs[1..], day + 1, last);
      RunFrontStep(w, probability, inputs, day);
      TailFront(inputs);
    }
  }

  /** Day `day`'s at most one event, followed by later days' events in
      increasing day order, is in increasing day order. */
  lemma EventDaysStep(start: nat, mid: seq<Event>, log: seq<Event>, day: nat, days: nat)
    requires start <= |mid| <= |log|
    requires forall i :: start <= i < |mid| ==> mid[i].day == day
    requires |mid| <= start + 1
    requires forall i :: 0 <= i < |mid| ==> log[i] == mid[i]
    requires forall i :: |mid| <= i < |log| ==> day < log[i].day <= day + days
    requires forall i, j :: |mid| <= i < j < |log| ==> log[i].day < log[j].day
    ensures forall i :: start <= i < |log| ==> day <= log[i].day <= day + days
    ensures forall i, j :: start <= i < j < |log| ==> log[i].day < log[j].day
  {
  }

  /** How the first day of a run shapes its event log: that day logs at
      most one event, dated `day`, and the rest of the run keeps it. */
  lemma RunEventLogStep(w: World, probability: real, inputs: seq<DayInputs>, day: nat)
    requires Runnable(w, inputs, day) && |inputs| > 0
    ensures var next := SimulateDay(w, day, probability, inputs[0]);
            var log := Run(w, probability, inputs, day).events;
            && Runnable(next, inputs[1..], day + 1)
            && log == Run(next, probability, inputs[1..], day + 1).events
            && |w.events| <= |next.events| <= |w.events| + 1
            && (forall i :: |w.events| <= i < |next.events| ==> next.events[i].day == day)
            && |next.events| <= |log|
            && (forall i :: 0 <= i < |next.events| ==> log[i] == next.events[i])
  {
    RunFirstDay(w, probability, inputs, day);
    var next := SimulateDay(w, day, probability, inputs[0]);
    var log := Run(w, probability, inputs, day).events;
    RunEventBounds(next, probability, inputs[1..], day + 1);
    assert forall i :: 0 <= i < |next.events| ==> log[i] == log[..|next.events|][i];
  }

  /** The events a run logs carry the days it simulates, in strictly increasing order. */
  lemma {:induction false} RunEventDays(w: World, probability: real, inputs: seq<DayInputs>, day: nat)
    requires Runnable(w, inputs, day)
    decreases |inputs|
    ensures var r := Run(w, probability, inputs, day);
            && (forall i :: |w.events| <= i < |r.events| ==> day <= r.events[i].day < day + |inputs|)
            && (forall i, j :: |w.events| <= i < j < |r.events| ==> r.events[i].day < r.events[j].day)
  {
    if |inputs| > 0 {
      RunEventLogStep(w, probability, inputs, day);
      var next := SimulateDay(w, day, probability, inputs[0]);
      RunEventDays(next, probability, inputs[1..], day + 1);
      EventDaysStep(|w.events|, next.events, Run(w, probability, inputs, day).events, day, |inputs| - 1);
    }
  }

  /** The world right after construction: the default market state, the
      registry with its hub connections built, and no events or transactions. */
  function InitialWorld(reg: Registry, prices: PriceTable): (w: World)
    ensures InBounds(w.market)
    ensures w.events == [] && w.accounts.ledger == []
    ensures |w.accounts.registry| == |reg|
    ensures forall i :: 0 <= i < |reg| ==>
              w.accounts.registry[i] == reg[i].(connections := w.accounts.registry[i].connections)
    ensures w.prices == prices
    // On freshly created agents the only edges are the hub edges.
    ensures FreshRegistry(reg) ==>
              forall x, y :: Connected(w.accounts.registry, x, y) <==>
                || NewEdge(reg, FindByName(reg, CentralBankName), CentralBankRule, x, y)
                || NewEdge(reg, FindByName(reg, ExchangeName), ExchangeRule, x, y)
  {
    World(Initial(), Accounts(EstablishConnections(reg), []), [], prices)
  }

  /** What every day of the simulation keeps. */
  ghost predicate Invariant(w: World)
  {
    && InBounds(w.market)
    && WellFormed(w.accounts.registry)
    && Symmetric(w.accounts.registry)
    && DistinctConnections(w.accounts.registry)
    && NonNegativeBalances(w.accounts.registry)
    && AllPositive(w.prices)
  }

  /** Agents that share a graph share its symmetry and duplicate-freedom. */
  lemma SameGraphKeepsShape(reg: Registry, reg': Registry)
    requires SameGraph(reg, reg')
    ensures Symmetric(reg) ==> Symmetric(reg')
    ensures DistinctConnections(reg) ==> DistinctConnections(reg')
  {
    assert forall x, y :: Connected(reg', x, y) <==> Connected(reg, x, y);
  }

  /** The agents the configuration creates, before any connection exists. */
  predicate FreshRegistry(reg: Registry)
  {
    forall i :: 0 <= i < |reg| ==> reg[i].id == i && reg[i].connections == [] && reg[i].balance >= 0.0
  }

  /** The constructed world satisfies the invariant. */
  lemma InitialWorldInvariant(reg: Registry, prices: PriceTable)
    requires FreshRegistry(reg) && AllPositive(prices)
    ensures Invariant(InitialWorld(reg, prices))
  {
    NoConnectionsIsSymmetric(reg);
    EstablishConnectionsKeepsInvariants(reg);
  }

  /** One day keeps the invariant and the total of all balances. */
  lemma SimulateDayPreservesInvariant(w: World, day: nat, probability: real, inp: DayInputs)
    requires Invariant(w)
    requires CoversDay(w.prices, day)
    requires ValidInputs(|w.accounts.registry|, inp)
    ensures Invariant(SimulateDay(w, day, probability, inp))
    ensures TotalBalance(SimulateDay(w, day, probability, inp).accounts.registry) == TotalBalance(w.accounts.registry)
  {
    var r := SimulateDay(w, day, probability, inp);
    InteractionsPreserveBalances(w.accounts, inp.attempts);
    SameGraphKeepsShape(w.accounts.registry, r.accounts.registry);
    UpdateKeepsPricesPositive(w.prices, day, r.market);
  }

  /** Every day of a run keeps the invariant, and money is neither created nor destroyed. */
  lemma {:induction false} RunPreservesInvariant(w: World, probability: real, inputs: seq<DayInputs>, day: nat)
    requires Invariant(w) && Runnable(w, inputs, day)
    decreases |inputs|
    ensures Invariant(Run(w, probability, inputs, day))
    ensures TotalBalance(Run(w, probability, inputs, day).accounts.registry) == TotalBalance(w.accounts.registry)
  {
    if |inputs| > 0 {
      NextDayRunnable(w, probability, inputs, day);
      var next := SimulateDay(w, day, probability, inputs[0]);
      SimulateDayPreservesInvariant(w, day, probability, inputs[0]);
      RunPreservesInvariant(next, probability, inputs[1..], day + 1);
    }
  }

  /** On a day with no event and no policy move the market state is the noise step alone. */
  lemma QuietDayIsNoiseOnly(w: World, day: nat, probability: real, inp: DayInputs)
    requires WellFormed(w.accounts.registry)
    requires CoversDay(w.prices, day)
    requires ValidInputs(|w.accounts.registry|, inp)
    requires probability <= inp.event.trial
    requires !PolicyDay(day, HasCentralBank(w.accounts.registry))
    ensures SimulateDay(w, day, probability, inp).market == UpdateMarketState(w.market, inp.noise)
  {
  }

  /** The policy rule sees the noise-perturbed inflation: when the day's noise
      alone lifts inflation above the ceiling on a quiet policy day, the rate
      rises from its perturbed value. */
  lemma PolicySeesPerturbedInflation(w: World, day: nat, probability: real, inp: DayInputs)
    requires WellFormed(w.accounts.registry)
    requires CoversDay(w.prices, day)
    requires ValidInputs(|w.accounts.registry|, inp)
    requires probability <= inp.event.trial
    requires PolicyDay(day, HasCentralBank(w.accounts.registry))
    requires w.market.inflationRate <= InflationCeiling
    requires UpdateMarketState(w.market, inp.noise).inflationRate > InflationCeiling
    ensures SimulateDay(w, day, probability, inp).market.interestRate >
            UpdateMarketState(w.market, inp.noise).interestRate
  {
  }

  /** The policy rule sees the event's effect: on a policy day where growth
      starts above the floor and no noise moves the state, a natural disaster
      that pushes growth below the floor makes the bank cut the rate. */
  lemma PolicySeesEventEffect(w: World, day: nat, probability: real, inp: DayInputs)
    requires WellFormed(w.accounts.registry)
    requires CoversDay(w.prices, day)
    requires ValidInputs(|w.accounts.registry|, inp)
    requires InBounds(w.market) && w.market.interestRate > MinInterestRate
    requires inp.noise == Noise(0.0, 0.0, 0.0, 0.0, 0.0, 0.0, 0.0)
    requires inp.event.trial < probability && inp.event.kind == NaturalDisaster
    requires PolicyDay(day, HasCentralBank(w.accounts.registry))
    requires w.market.inflationRate <= InflationCeiling
    requires w.market.economicGrowth >= GrowthFloor
    requires ApplyEffect(w.market, NaturalDisaster, inp.event.magnitude).economicGrowth < GrowthFloor
    ensures SimulateDay(w, day, probability, inp).market.interestRate < w.market.interestRate
  {
  }
}

=== FILE: wrappers.dfy ===
/** The optional-value type used for lookups that may find nothing. */
module Wrappers {

  datatype Option<+T> = None | Some(value: T)
}
